=== FILE: README.md ===
# AIMultiChoiceTest in Dafny

A model of the deterministic core of AIMultiChoiceTest. The system is three
Streamlit scripts that turn a lecture text into multiple-choice questions.
Each script runs the same pipeline:

1. The uploaded file is accepted by its extension (`pdf`, `docx` or `txt`).
   Its extracted text is cleaned of Markdown formatting.
2. The text is cut into segments:
   - `app.py` splits on the literal `+++++`;
   - `app2.py` and `app3.py` cut it into a user-chosen number of chunks, each
     one stripped of surrounding whitespace.
3. Each segment is sent, inside a prompt, to a language model. A reply that
   carries content is cleaned of Markdown and kept. Any other reply gives
   `None` and is skipped.
4. The kept answers are numbered into a DOCX document:
   - a header paragraph (`"{n}. -------------------------"` in `app.py`,
     `"{n}. "` in the other two);
   - the answer verbatim;
   - a `"\n"` paragraph.
5. The document is saved as `domande_multiple_del_DD_ora_HH.docx`.

Modules, one per part of the pipeline:

- `Wrappers`: `Option` and `Values`. `Values` is the list of present values,
  which is what the collection loop builds.
- `Text`: ASCII whitespace, literal occurrences and `str.find`.
  It also holds deletion-only rewriting (subsequences) and `str.strip()`.
- `Markdown`, `MarkdownLemmas`, `MarkdownExamples`: the five `re.sub` passes
  of `clean_markdown_formatting`, each written directly with Python `re`
  semantics:
  - the leftmost match comes first and matches do not overlap;
  - `.*?` is lazy and never crosses a line feed.
  These modules also hold the lemmas about the passes and concrete cases.
- `Segmenter`: `str.split("+++++")` and the fixed-count chunker.
  `SplitIntoChunks` is a method whose loop mirrors the source's
  `start`/`end` loop.
- `Orchestrator`: the reply of the language model, `generate_questions`, and
  the collection loop. The loop is the method `CollectQuestions`.
- `Assembler`: the document as a class whose `paragraphs` grow by
  `AddParagraph`, `write_questions_to_docx` as a method, the header numbering,
  and the output file name.
- `Ingest`: the extension dispatch and `upload_and_extract_text`.
- `Pipeline`: the two drivers, with the delimiter (`app.py`) and with chunks
  (`app2.py`, `app3.py`), and what the written document holds when every
  reply succeeds or exactly one fails.

The language model is an oracle `answers: nat -> Response`. The `i`-th call
gets `answers(i)`. The prompts sent are returned as a trace, so it can be
stated that every segment is submitted in order. The prompt template is a
head and a tail around the segment.

Behaviour of the code worth knowing, which its own comments (`# Rimuove
elenchi puntati`, `# Rimuove titoli di secondo livello`) do not suggest; the
model follows the code:

- **Bullet pass.** The pass `[-*]\s` deletes every `-` or `*` followed by
  whitespace anywhere in the text, not only at the start of a line. For
  example, `"--  x"` becomes `"- x"`, and cleaning that again gives `"x"`,
  so cleaning is not idempotent. See `BulletPassAround`, `CleanNestedDash`
  and `CleanNotIdempotent`.
- **Heading pass.** It keeps everything after the marker. `"## Titolo\n"`
  becomes `" Titolo\n"`, with the space kept (`CleanHeading`).
  - Only the first marker of a line goes (`HeadingPassLine`).
  - A last line without `'\n'` keeps its marker (`HeadingPassLastLine`).
- **Name without a dot.** In the dispatch of `upload_and_extract_text`
  (app.py:74-83), a name with no dot is its own extension, so the dispatch
  takes a name `txt` as text (`NoDotName`). The uploader's type filter keeps
  such names from reaching the dispatch (see "Left out").
- **Numbering in the drivers.** The drivers hand `write_questions_to_docx`
  the already filtered list, so its `None` branch is never taken from them
  and the numbering is always 1..k with no gap (`DocumentOneFails`).
  `RenderedGap` shows the gap that the function itself would leave for a
  `None` entry.

## Model

| member | source | states |
|---|---|---|
| Wrappers.Values | app.py:175-180 | the collected list is never longer than the list of results |
| Wrappers.ValuesAppend | app.py:176-180 | collecting distributes over concatenation: kept results are never reordered |
| Wrappers.ValuesComplete | app.py:179-180 | the collected list is as long as the results exactly when no result is `None` (both directions) |
| Wrappers.ValuesAllPresent | app3.py:182-187 | when every result is present, entry `i` of the collected list is result `i` |
| Wrappers.ValuesOmitOne | app3.py:182-187 | when only result `k` is missing, the list has one entry fewer: results before `k` at their own index, later ones moved up by one, no placeholder |
| Wrappers.ValuesSkip | app2.py:185-190 | a `None` result contributes nothing: the list is what was collected before it followed by what was collected after it |
| Text.Find | app.py:93-94 | a found position is an occurrence of the separator |
| Text.FindCorrect | app.py:93-94 | the found occurrence is the leftmost one, and nothing is found exactly when there is no occurrence |
| Text.LeadingSpacesCorrect | app2.py:98 | `strip()` cuts the whole whitespace run at the start and stops at the first other character |
| Text.TrailingSpacesCorrect | app2.py:98 | `strip()` cuts the whole whitespace run at the end and stops at the last other character |
| Text.Strip | app3.py:98 | a stripped chunk is never longer than its slice |
| Text.StripCorrect | app2.py:98 | `strip()` leaves a contiguous piece of its input with only whitespace cut off outside it and no whitespace at either end |
| Text.StrippedUnique | app3.py:98 | that description of `strip()` fixes its result: two results meeting it are equal |
| Markdown.LazyClose | app.py:62-65 | the end of a lazy group `(.*?)` is an occurrence of the closing literal |
| Markdown.LazyCloseCorrect | app.py:62-65 | the lazy group stops at the first closing literal and never contains a line feed; there is no match only when every closing literal lies past a line feed |
| Markdown.MatchAt | app.py:62-65 | a match starts with the opening literal and has the closing literal at the reported offset |
| Markdown.MatchParts | app.py:62-65 | a match splits the text into opening literal, group, closing literal and the rest |
| Markdown.CleanMarkdownFormatting | app.py:58-67 | the cleaned text is a subsequence of the input and never longer |
| Markdown.MarkerPairPassKeeps | app.py:62-63 | the bold and italic passes change the count of no character outside their marker |
| Markdown.HeadingPassKeeps | app.py:64-65 | the heading passes change the count of no character other than `#` |
| Markdown.BulletPassKeeps | app.py:66 | the bullet pass removes only bullet marks and whitespace |
| Markdown.EmphasisAndHeadingsKeep | app2.py:58-61 | the first four passes delete only `*` and `#`, so they never delete a line feed |
| Markdown.SubsequenceUnwrap | app.py:62-63 | unwrapping one marker pair only deletes characters |
| Markdown.MarkerPairPassSubsequence | app.py:62-63 | the bold and italic passes only delete characters |
| Markdown.HeadingPassSubsequence | app.py:64-65 | the heading passes only delete characters |
| Markdown.BulletPassSubsequence | app.py:66 | the bullet pass only deletes characters |
| Markdown.BulletPassAround | app.py:66 | a `-` or `*` followed by whitespace is deleted together with it wherever it stands, and the text on either side is cleaned as if the pair were not there |
| Markdown.CleanIsSubsequence | app.py:62-66 | the five passes in order only delete characters, so the result is never longer |
| MarkdownLemmas.MarkerPairPassNoMarker | app.py:62-63 | text without the marker character passes the bold and italic passes unchanged |
| MarkdownLemmas.HeadingPassNoMarker | app.py:64-65 | text without `#` passes the heading passes unchanged |
| MarkdownLemmas.BulletPassNoMarker | app.py:66 | text with no `*` and no `-` followed by whitespace passes the bullet pass unchanged |
| MarkdownLemmas.CleanPlainText | app.py:62-67 | text with no `*`, no `#` and no `-` followed by whitespace is returned unchanged |
| MarkdownLemmas.MarkerPairPassPair | app.py:62-63 | after text free of the marker character, a pair `marker + x + marker` with `x` on one line and free of the marker character is replaced by `x`, and the pass goes on after the closing marker |
| MarkdownLemmas.MarkerPairPassNoOccurrence | app.py:62-63 | text in which the marker never occurs passes the bold or italic pass unchanged, even if it holds single `*` |
| MarkdownLemmas.RemoveFirstCons | app3.py:60-61 | removing the first marker of a line that does not start with it keeps the line's first character |
| MarkdownLemmas.LazyCloseAfter | app3.py:60-61 | on a line with no marker character, a heading's group runs to the line's own line feed |
| MarkdownLemmas.HeadingPassLineMatched | app3.py:60-61 | a line that starts with the marker loses exactly that marker and keeps its line feed |
| MarkdownLemmas.HeadingPassLineUnmatched | app3.py:60-61 | a line that does not start with the marker has no heading match at its start |
| MarkdownLemmas.HeadingPassLine | app3.py:60-61 | on each line ending in `'\n'` the heading pass removes the first marker of that line, and only that one, then goes on with the next line |
| MarkdownLemmas.HeadingPassLastLine | app3.py:60-61 | a last line without `'\n'` keeps its markers |
| MarkdownExamples.NoEmphasisNoHeadings | app2.py:58-61 | text with no `*` and no `#` passes the first four passes unchanged |
| MarkdownExamples.CleanBoldRun | app2.py:58 | `"**" + x + "**"` on one line of plain text cleans to `x` |
| MarkdownExamples.CleanBold | app2.py:58 | `"**x**"` cleans to `"x"` |
| MarkdownExamples.CleanItalicIn | app.py:62-63 | an italic pair `"*" + x + "*"` inside one line of plain text cleans to `x` with the text around it kept; the bold pass finds no `**` there |
| MarkdownExamples.CleanItalic | app.py:63 | `"a *b* c"` cleans to `"a b c"` |
| MarkdownExamples.CleanHeadingLine | app2.py:60 | a level-2 heading line `"##" + title + "\n"` cleans to `title + "\n"`, so leading spaces of the title are kept |
| MarkdownExamples.CleanHeading | app2.py:60 | `"## Titolo\n"` cleans to `" Titolo\n"` |
| MarkdownExamples.CleanDash | app2.py:62 | `"- " + x` cleans to `x` for plain `x` |
| MarkdownExamples.CleanBullet | app2.py:62 | `"- voce"` cleans to `"voce"` |
| MarkdownExamples.CleanNestedDash | app3.py:62 | `"--  x"` cleans to `"- x"`: one pass deletes a mark in the middle of the text |
| MarkdownExamples.CleanNotIdempotent | app3.py:57-63 | cleaning `"--  x"` twice gives `"x"`, so cleaning is not idempotent |
| Segmenter.SplitNonEmpty | app.py:93-94 | splitting always gives at least one piece |
| Segmenter.SplitJoin | app.py:93-94 | joining the pieces with `+++++` gives back the input exactly |
| Segmenter.SplitPiecesFree | app.py:93-94 | no piece contains the separator |
| Segmenter.CountSkip | app.py:93-94 | a prefix holding no occurrence does not change the number of occurrences |
| Segmenter.SplitCount | app.py:93-94 | the number of pieces is the number of leftmost non-overlapping occurrences plus one |
| Segmenter.SplitNoDelimiter | app.py:93-94 | text without the separator gives the single piece `[text]` |
| Segmenter.SplitEmpty | app.py:93-94 | `""` gives `[""]` |
| Segmenter.FindAfterPiece | app.py:93-94 | after a piece with no `+`, the separator is found right at its end |
| Segmenter.SplitAfterPiece | app.py:93-94 | a piece with no `+` followed by the separator becomes the first piece |
| Segmenter.SplitLastPiece | app.py:93-94 | a text with no `+` is a single piece |
| Segmenter.SplitThreePieces | app.py:93-94 | three pieces free of `+`, joined by the separator, split back into those three |
| Segmenter.SplitThree | app.py:93-94 | `"A+++++B+++++C"` gives `["A","B","C"]` |
| Segmenter.SplitKeepsSpaces | app.py:93-94 | `"A +++++ B"` gives `["A ", " B"]`: pieces are never trimmed |
| Segmenter.SliceBounds | app2.py:90-97 | every slice starts no later than it ends and ends inside the text |
| Segmenter.Slices | app2.py:94-99 | the loop makes exactly one slice per iteration |
| Segmenter.SlicesIndex | app2.py:95-98 | slice `i` is `text[i*size:(i+1)*size]`, or `text[(n-1)*size:len]` for the last |
| Segmenter.StripAllIndex | app2.py:98 | chunk `i` is the stripped slice `i` |
| Segmenter.SplitIntoChunks | app2.py:89-102 | the chunker returns exactly `num_chunks` chunks, chunk `i` being `strip()` of slice `i`; its loop keeps `start == i * (len // num_chunks)` |
| Segmenter.SlicesMeet | app2.py:100 | each slice starts where the previous one ended |
| Segmenter.SliceStep | app3.py:95-97 | a slice ends one chunk size after its start, except the last, which ends at the end of the text |
| Segmenter.SlicesPrefix | app3.py:94-100 | the first `k` slices concatenate to the text up to the end of slice `k-1` |
| Segmenter.SlicesTile | app3.py:89-102 | the unstripped slices concatenate back to the whole text |
| Segmenter.SliceLengths | app2.py:90-97 | every slice but the last has `len // n` characters; the last also takes the remainder |
| Segmenter.HundredInThree | app2.py:90-97 | 100 characters in 3 chunks give slices of 33, 33 and 34 |
| Segmenter.MoreChunksThanCharacters | app2.py:90-98 | with more chunks than characters, the first `n-1` chunks are `""` and the last is the stripped text |
| Segmenter.ChunkIsStrippedSlice | app3.py:98 | each chunk is a contiguous piece of its slice, no longer than it, with no whitespace at either end |
| Orchestrator.Prompt | app.py:115-116 | the prompt is as long as the template text and the whole segment together |
| Orchestrator.PromptInjective | app2.py:135-136 | different segments give different prompts |
| Orchestrator.GenerateQuestions | app.py:125-130 | a reply gives a question exactly when it has content, and then the question is the content with only characters deleted |
| Orchestrator.GenerateQuestionsPlain | app3.py:137-138 | content without Markdown marks comes back unchanged |
| Orchestrator.Prompts | app.py:176-178 | one prompt per segment |
| Orchestrator.Results | app.py:176-178 | one result per call |
| Orchestrator.PromptsIndex | app.py:176-178 | prompt `i` is built from segment `i`, empty segments included |
| Orchestrator.ResultsIndex | app2.py:186-188 | result `i` is what `generate_questions` makes of reply `i` |
| Orchestrator.CollectQuestions | app.py:175-180 | the loop submits every segment in order and keeps exactly the non-`None` results in order, never more than there are segments |
| Orchestrator.CollectAllSucceed | app3.py:182-187 | when every reply has content, question `i` is the cleaned reply `i` |
| Orchestrator.CollectOneFails | app3.py:182-187 | when only reply `k` has no content, there are `n-1` questions, the survivors in their original order |
| Assembler.Digit | app.py:141 | a digit value is written as a decimal digit |
| Assembler.Decimal | app.py:141 | a number is written with at least one character |
| Assembler.DecimalValue | app.py:141 | the number in a header is written in decimal digits that read back as the number, with no leading zero |
| Assembler.DecimalInjective | app2.py:151 | different numbers are written differently |
| Assembler.Header | app.py:141 | the header is longer than its number |
| Assembler.HeaderInjective | app3.py:148 | different entry numbers give different headers |
| Assembler.Block | app.py:136-143 | a present entry gives three paragraphs and a `None` entry none |
| Assembler.Document.constructor | app.py:134 | a new document has no paragraphs |
| Assembler.Document.AddParagraph | app.py:141-143 | a paragraph is added at the end and nothing else changes |
| Assembler.WriteQuestionsToDocx | app.py:133-143 | the document built has exactly the rendered paragraphs of the list, in list order |
| Assembler.RenderedSkipsMissing | app.py:137-138 | a `None` entry adds no paragraph: the loop moves on to the next entry |
| Assembler.RenderedLength | app2.py:147-154 | the paragraph count is three times the number of non-`None` entries |
| Assembler.Present | app.py:191 | the filtered list is handed over whole, one entry per question |
| Assembler.RenderedPresent | app3.py:146-150 | entry `i` gives the header numbered `i+1`, the entry verbatim and `"\n"`, in list order |
| Assembler.BlocksAppend | app3.py:146-150 | appending one entry's block keeps the earlier entries' paragraphs in place |
| Assembler.RenderedGap | app2.py:149-153 | numbering follows the list index, so a `None` entry leaves a gap (`"1. "` then `"3. "`) |
| Assembler.TwoDigits | app.py:184-185 | day and hour are written as two decimal digits |
| Assembler.TwoDigitsValue | app2.py:197-198 | the two zero-padded digits read back as the day or the hour |
| Assembler.OutputFilename | app.py:188 | the file name always has 35 characters |
| Assembler.OutputFilenameFields | app2.py:197-199 | the day and the hour can be read back from their fixed positions in the file name |
| Assembler.OutputFilenameExample | app3.py:194-196 | day 7 and hour 14 give `"domande_multiple_del_07_ora_14.docx"` |
| Ingest.ExtensionWhole | app.py:74 | a name with no dot is its own extension |
| Ingest.ExtensionRest | app.py:74 | the extension is what follows the last dot: cutting at the first dot does not change it |
| Ingest.ExtensionCorrect | app.py:74 | the extension is a dot-free suffix of the name, preceded by a dot unless it is the whole name |
| Ingest.LowerAscii | app.py:74 | lowercasing keeps the length |
| Ingest.LowerAsciiIndex | app.py:74 | lowercasing maps each character on its own |
| Ingest.KindOfExtension | app.py:77-86 | only `pdf`, `docx` or `txt` is accepted, each as its own kind |
| Ingest.KindOfExtensionComplete | app.py:77-83 | each of `pdf`, `docx` and `txt` is accepted |
| Ingest.KindOf | app2.py:70-82 | an accepted name's lowercased extension is the name of its kind |
| Ingest.UploadAndExtract | app.py:70-90 | there is text exactly when a file was uploaded with a supported extension; it is the extracted text with only characters deleted |
| Ingest.ExtensionAfterDot | app3.py:70 | a dot-free first part is cut off with its dot |
| Ingest.ExtensionNoDot | app3.py:70 | a name with no dot is its own extension |
| Ingest.UpperCaseAccepted | app3.py:70-74 | `"Lezione.PDF"` is accepted as a PDF |
| Ingest.LastDotCounts | app3.py:70-82 | `"archivio.tar.gz"` is refused: only the part after the last dot counts |
| Ingest.OldWordRefused | app3.py:80-82 | `"relazione.doc"` is refused |
| Ingest.NoDotName | app3.py:70-79 | the dispatch takes a name with no dot, `"txt"`, as its own extension and so as text |
| Pipeline.RunDelimited | app.py:150-191 | no key stops the run; then no text stops it; otherwise every `+++++` segment is sent in order, and the document numbers the present answers with dashed headers under the day/hour file name |
| Pipeline.RunChunked | app2.py:157-202 | as above, but nothing happens before the button, and the text is cut into `num_chunks` stripped chunks with plain headers |
| Pipeline.DocumentAllSucceed | app3.py:182-199 | when every segment succeeds, the document has `n` entries numbered 1..n in segment order |
| Pipeline.DocumentOneFails | app3.py:182-199 | when the reply for segment `k` of `n` has no content, the document has `n-1` entries numbered 1..n-1 without a gap, the survivors in their original order |

## Left out

- Streamlit UI: the title, sidebar, file uploader, messages, download button and session state. The API key is a string (empty means missing), the upload is an optional file name, and the button is a boolean.
- The number input's bounds 1..50 (app2.py:171) become `RunChunked`'s precondition. `num_chunks = 0` would divide by zero and cannot be reached from the UI.
- The uploader's type filter (`type=["pdf", "docx", "txt"]` at app.py:71, app2.py:67, app3.py:67) is not modelled: the upload may be any name. In the program the filter makes two paths unreachable from the UI: names without a dot, and the unsupported-format branch at app.py:84-86. The model keeps both paths as the dispatch code itself handles them.
- Exceptions are not modelled. An exception raised by the model call (app.py:119, app2.py:138, app3.py:135) or by an extractor (app.py:78-83) is caught nowhere and aborts the whole run: no later segment is sent and no document is written. There is no `Outcome` for this. A `Response` is either content or an `Unrecognized` reply, which stands only for the reply without content at app.py:128-130. In `CollectOneFails` and `DocumentOneFails`, "fails" means a reply without content.
- Text extraction from PDF, DOCX and TXT files (PyPDF2, python-docx, UTF-8 decoding). It is a function parameter `extract` from file kind to text.
- The language model: the client, the prompt template's wording, the temperature and the model choice. The template is a head and a tail around the segment, and the replies are the oracle `answers`.
- Saving the document and opening it for download are I/O. The document is its list of paragraph texts.
- `datetime.now()`: day and hour are parameters.
- Logging, `load_dotenv` and environment variables.
- Character classes: whitespace for `\s` and `strip()` is the six ASCII whitespace characters. Python also counts the ASCII separators `\x1c`-`\x1f`, `\x85`, `\xa0` and the other Unicode spaces, which the model treats as ordinary characters. Lowercasing is ASCII only.
- `Markdown.CleanMarkdownFormatting`: for the bold and italic passes there is no line-by-line equation like `HeadingPassLine`; a pair on one line is covered by `MarkerPairPassPair`, and a marker whose partner lies past a line feed only by `LazyCloseCorrect` (a group never holds a line feed).
- `Orchestrator.Prompt`: the prompt is modelled as head, segment and tail, not as the LangChain template rendering.

=== FILE: assembler.dfy ===
/** The output document: numbered blocks of paragraphs, and the name it is
    saved under. */
module Assembler {
  import opened Wrappers

  /** The two header styles: `"{i+1}. -------------------------"` and `"{i+1}. "`. */
  datatype HeaderStyle = Dashed | Plain

  const Rule := "-------------------------"
  const Blank := "\n"

  predicate IsDigit(c: char) {
    '0' as int <= c as int <= '9' as int
  }

  function Digit(d: nat): (c: char)
    requires d < 10
    ensures IsDigit(c)
  {
    (48 + d) as char
  }

  /** Python's `str(n)` for a natural number. */
  function Decimal(n: nat): (r: string)
    ensures 1 <= |r|
    decreases n
  {
    if n < 10 then [Digit(n)] else Decimal(n / 10) + [Digit(n % 10)]
  }

  /** The number a string of decimal digits stands for. */
  function DigitsValue(s: string): nat
    requires forall i :: 0 <= i < |s| ==> IsDigit(s[i])
  {
    if s == [] then 0
    else
      assert IsDigit(s[|s| - 1]);
      DigitsValue(s[..|s| - 1]) * 10 + (s[|s| - 1] as int - '0' as int)
  }

  /** `Decimal` writes digits only, with no leading zero, and reads back as
      the number it was given. */
  lemma {:induction false} DecimalValue(n: nat)
    ensures forall i :: 0 <= i < |Decimal(n)| ==> IsDigit(Decimal(n)[i])
    ensures DigitsValue(Decimal(n)) == n
    ensures Decimal(n)[0] == '0' ==> n == 0
    decreases n
  {
    if n >= 10 {
      var r := Decimal(n);
      DecimalValue(n / 10);
      assert r[..|r| - 1] == Decimal(n / 10);
    }
  }

  /** Different numbers get different headers. */
  lemma DecimalInjective(m: nat, n: nat)
    requires Decimal(m) == Decimal(n)
    ensures m == n
  {
    DecimalValue(m);
    DecimalValue(n);
  }

  /** The header paragraph of the block for entry number `number`. */
  function Header(style: HeaderStyle, number: nat): (r: string)
    ensures |r| > |Decimal(number)|
  {
    match style
    case Dashed => Decimal(number) + ". " + Rule
    case Plain => Decimal(number) + ". "
  }

  /** Headers of one style differ exactly when their numbers do. */
  lemma HeaderInjective(style: HeaderStyle, m: nat, n: nat)
    requires Header(style, m) == Header(style, n)
    ensures m == n
  {
    var suffix := if style == Dashed then ". " + Rule else ". ";
    assert Header(style, m) == Decimal(m) + suffix;
    assert Header(style, n) == Decimal(n) + suffix;
    assert Decimal(m) == Header(style, m)[..|Header(style, m)| - |suffix|];
    assert Decimal(n) == Header(style, n)[..|Header(style, n)| - |suffix|];
    DecimalInjective(m, n);
  }

  /** The paragraphs written for the entry at list index `i`: nothing for a
      missing one, otherwise the header numbered `i + 1`, the entry as it is,
      and a paragraph holding a line feed. */
  function Block(style: HeaderStyle, i: nat, entry: Option<string>): (r: seq<string>)
    ensures |r| == (if entry.Some? then 3 else 0)
  {
    if entry.Some? then [Header(style, i + 1), entry.value, Blank] else []
  }

  /** The paragraphs of the document written for `questions`, in list order. */
  function Rendered(questions: seq<Option<string>>, style: HeaderStyle): seq<string>
  {
    if questions == [] then []
    else
      var n := |questions| - 1;
      Rendered(questions[..n], style) + Block(style, n, questions[n])
  }

  /** The document being built: its paragraphs, in the order they were added. */
  class Document {
    var paragraphs: seq<string>

    constructor ()
      ensures paragraphs == []
    {
      paragraphs := [];
    }

    method AddParagraph(text: string)
      modifies this
      ensures paragraphs == old(paragraphs) + [text]
    {
      paragraphs := paragraphs + [text];
    }
  }

  /** `write_questions_to_docx` up to the save: one block per entry, in
      list order, numbered by list position. */
  method WriteQuestionsToDocx(questions: seq<Option<string>>, style: HeaderStyle) returns (doc: Document)
    ensures fresh(doc)
    ensures doc.paragraphs == Rendered(questions, style)
  {
    doc := new Document();
    for i := 0 to |questions|
      invariant doc.paragraphs == Rendered(questions[..i], style)
    {
      RenderedStep(questions, style, i);
      if questions[i].Some? {
        doc.AddParagraph(Header(style, i + 1));
        doc.AddParagraph(questions[i].value);
        doc.AddParagraph(Blank);
      }
    }
    assert questions[..|questions|] == questions;
  }

  /** One more entry adds its block at the end. */
  lemma RenderedStep(questions: seq<Option<string>>, style: HeaderStyle, i: nat)
    requires i < |questions|
    ensures Rendered(questions[..i + 1], style) == Rendered(questions[..i], style) + Block(style, i, questions[i])
  {
    assert questions[..i + 1][..i] == questions[..i];
  }

  /** Three paragraphs per present entry and none for a missing one. */
  lemma {:induction false} RenderedLength(questions: seq<Option<string>>, style: HeaderStyle)
    ensures |Rendered(questions, style)| == 3 * |Values(questions)|
    decreases |questions|
  {
    if questions != [] {
      RenderedLength(questions[..|questions| - 1], style);
    }
  }

  /** A missing entry at the end adds nothing. */
  lemma RenderedSkipsMissing(questions: seq<Option<string>>, style: HeaderStyle)
    ensures Rendered(questions + [None], style) == Rendered(questions, style)
  {
  }

  /** Entries of `questions`, all present. */
  function Present(questions: seq<string>): (r: seq<Option<string>>)
    ensures |r| == |questions|
  {
    if questions == [] then [] else Present(questions[..|questions| - 1]) + [Some(questions[|questions| - 1])]
  }

  /** For a list with no missing entries, block `i` is the header numbered
      `i + 1`, then entry `i` unchanged, then the line feed: numbering runs
      1..n without gaps and nothing is reordered or rewritten. */
  lemma {:induction false} RenderedPresent(questions: seq<string>, style: HeaderStyle)
    ensures |Rendered(Present(questions), style)| == 3 * |questions|
    ensures forall i :: 0 <= i < |questions| ==>
      Rendered(Present(questions), style)[3 * i] == Header(style, i + 1) &&
      Rendered(Present(questions), style)[3 * i + 1] == questions[i] &&
      Rendered(Present(questions), style)[3 * i + 2] == Blank
    decreases |questions|
  {
    if questions != [] {
      var n := |questions| - 1;
      var init := questions[..n];
      RenderedPresent(init, style);
      RenderedPresentStep(questions, style);
      BlocksAppend(Rendered(Present(init), style), init, questions, style);
    }
  }

  /** Adding a present entry at the end adds its block at the end. */
  lemma RenderedPresentStep(questions: seq<string>, style: HeaderStyle)
    requires questions != []
    ensures var n := |questions| - 1;
      Rendered(Present(questions), style) == Rendered(Present(questions[..n]), style) + [Header(style, n + 1), questions[n], Blank]
  {
    var n := |questions| - 1;
    var p := Present(questions);
    assert p[..n] == Present(questions[..n]);
  }

  lemma BlocksAppend(r: seq<string>, init: seq<string>, questions: seq<string>, style: HeaderStyle)
    requires questions != [] && init == questions[..|questions| - 1] && |r| == 3 * |init|
    requires forall i :: 0 <= i < |init| ==> r[3 * i] == Header(style, i + 1) && r[3 * i + 1] == init[i] && r[3 * i + 2] == Blank
    ensures var all := r + [Header(style, |init| + 1), questions[|init|], Blank];
      forall i :: 0 <= i < |questions| ==> all[3 * i] == Header(style, i + 1) && all[3 * i + 1] == questions[i] && all[3 * i + 2] == Blank
  {
  }

  /** A missing entry inside the list leaves a gap in the numbering: the
      numbers are list positions. */
  lemma RenderedGap(a: string, b: string)
    ensures Rendered([Some(a), None, Some(b)], Plain) == ["1. ", a, Blank, "3. ", b, Blank]
  {
    var qs := [Some(a), None, Some(b)];
    assert Header(Plain, 1) == "1. " && Header(Plain, 3) == "3. ";
    assert qs[..2] == [Some(a), None] && qs[..2][..1] == [Some(a)] && qs[..2][..1][..0] == [];
    assert Rendered(qs[..2][..1], Plain) == ["1. ", a, Blank];
    assert Rendered(qs[..2], Plain) == ["1. ", a, Blank];
  }

  /** Two decimal digits with a leading zero, as `strftime` writes `%d` and `%H`. */
  function TwoDigits(n: nat): (r: string)
    requires n < 100
    ensures |r| == 2 && IsDigit(r[0]) && IsDigit(r[1])
  {
    [Digit(n / 10), Digit(n % 10)]
  }

  const FilenameHead := "domande_multiple_del_"
  const FilenameMiddle := "_ora_"
  const FilenameTail := ".docx"

  /** The output file name for day of the month `day` and hour `hour`. */
  function OutputFilename(day: nat, hour: nat): (r: string)
    requires 1 <= day <= 31 && hour <= 23
    ensures |r| == 35
  {
    FilenameHead + TwoDigits(day) + FilenameMiddle + TwoDigits(hour) + FilenameTail
  }

  /** Day and hour can be read back from the name, so different times give
      different names. */
  lemma OutputFilenameFields(day: nat, hour: nat)
    requires 1 <= day <= 31 && hour <= 23
    ensures DigitsValue(OutputFilename(day, hour)[21..23]) == day
    ensures DigitsValue(OutputFilename(day, hour)[28..30]) == hour
  {
    var r := OutputFilename(day, hour);
    assert r[21..23] == TwoDigits(day) && r[28..30] == TwoDigits(hour);
    TwoDigitsValue(day);
    TwoDigitsValue(hour);
  }

  lemma TwoDigitsValue(n: nat)
    requires n < 100
    ensures DigitsValue(TwoDigits(n)) == n
  {
    var r := TwoDigits(n);
    assert r[..1][..0] == [];
    assert DigitsValue(r[..1]) == n / 10;
    assert DigitsValue(r) == (n / 10) * 10 + n % 10;
  }

  lemma OutputFilenameExample()
    ensures OutputFilename(7, 14) == "domande_multiple_del_07_ora_14.docx"
  {
    assert TwoDigits(7) == "07" && TwoDigits(14) == "14";
  }
}

=== FILE: ingest.dfy ===
/** Choosing the extractor from the uploaded file's name. */
module Ingest {
  import opened Wrappers
  import opened Text
  import opened Markdown
  import opened Segmenter

  /** The three accepted formats. */
  datatype FileKind = Pdf | Docx | Txt

  const Dot := "."

  /** The extension each format is recognised by. */
  function KindName(kind: FileKind): string {
    match kind
    case Pdf => "pdf"
    case Docx => "docx"
    case Txt => "txt"
  }

  /** `name.split('.')[-1]`. */
  function Extension(name: string): string {
    SplitNonEmpty(name, Dot);
    var pieces := Split(name, Dot);
    pieces[|pieces| - 1]
  }

  lemma DotAt(s: string, p: int)
    ensures OccursAt(s, p, Dot) <==> 0 <= p < |s| && s[p] == '.'
  {
    if 0 <= p < |s| {
      assert s[p..p + 1] == [s[p]];
    }
  }

  /** Without a dot the whole name is the extension. */
  lemma ExtensionWhole(name: string)
    requires Find(name, Dot).None?
    ensures Extension(name) == name && '.' !in name
  {
    FindCorrect(name, Dot);
    forall p | 0 <= p < |name|
      ensures name[p] != '.'
    {
      DotAt(name, p);
    }
  }

  /** After the first dot the search goes on in the rest of the name. */
  lemma ExtensionRest(name: string, i: nat)
    requires Find(name, Dot) == Some(i)
    ensures name[i] == '.' && Extension(name) == Extension(name[i + 1..])
  {
    var rest := name[i + 1..];
    var pieces, tail := Split(name, Dot), Split(rest, Dot);
    SplitFound(name, Dot, i);
    SplitNonEmpty(rest, Dot);
    LastOfCons(pieces, name[..i], tail);
    DotAt(name, i);
  }

  lemma LastOfCons(pieces: seq<string>, first: string, tail: seq<string>)
    requires pieces == [first] + tail && tail != []
    ensures pieces[|pieces| - 1] == tail[|tail| - 1]
  {
  }

  /** The extension is what follows the last dot, or the whole name when
      there is no dot: a dot-free suffix of the name with a dot or the start
      of the name right before it. */
  lemma {:induction false} ExtensionCorrect(name: string)
    ensures '.' !in Extension(name)
    ensures |Extension(name)| <= |name| && name[|name| - |Extension(name)|..] == Extension(name)
    ensures |Extension(name)| < |name| ==> name[|name| - |Extension(name)| - 1] == '.'
    decreases |name|
  {
    match Find(name, Dot)
    case None =>
      ExtensionWhole(name);
    case Some(i) =>
      var rest := name[i + 1..];
      ExtensionRest(name, i);
      ExtensionCorrect(rest);
      SuffixOfRest(name, i, Extension(name));
  }

  lemma SuffixOfRest(name: string, i: nat, ext: string)
    requires i < |name| && name[i] == '.'
    requires var rest := name[i + 1..];
      |ext| <= |rest| && rest[|rest| - |ext|..] == ext && (|ext| < |rest| ==> rest[|rest| - |ext| - 1] == '.')
    ensures |ext| <= |name| && name[|name| - |ext|..] == ext
    ensures |ext| < |name| ==> name[|name| - |ext| - 1] == '.'
  {
    var rest := name[i + 1..];
    assert name[|name| - |ext|..] == rest[|rest| - |ext|..];
    if |ext| < |rest| {
      assert name[|name| - |ext| - 1] == rest[|rest| - |ext| - 1];
    }
  }

  function LowerChar(c: char): char {
    if 'A' as int <= c as int <= 'Z' as int then (c as int + 32) as char else c
  }

  /** `str.lower()` on ASCII letters; every other character is kept. */
  function LowerAscii(s: string): (r: string)
    ensures |r| == |s|
  {
    if s == [] then [] else [LowerChar(s[0])] + LowerAscii(s[1..])
  }

  lemma {:induction false} LowerAsciiIndex(s: string)
    ensures forall i :: 0 <= i < |s| ==> LowerAscii(s)[i] == LowerChar(s[i])
    decreases |s|
  {
    if s != [] {
      LowerAsciiIndex(s[1..]);
    }
  }

  /** The format named by a lower-cased extension, `None` for any other. */
  function KindOfExtension(ext: string): (r: Option<FileKind>)
    ensures r.Some? ==> ext == KindName(r.value)
  {
    if ext == KindName(Pdf) then Some(Pdf)
    else if ext == KindName(Docx) then Some(Docx)
    else if ext == KindName(Txt) then Some(Txt)
    else None
  }

  /** Exactly the three format names are accepted. */
  lemma KindOfExtensionComplete(ext: string, kind: FileKind)
    requires ext == KindName(kind)
    ensures KindOfExtension(ext) == Some(kind)
  {
  }

  /** The format of an uploaded file, `None` for an unsupported one. */
  function KindOf(name: string): (r: Option<FileKind>)
    ensures r.Some? ==> LowerAscii(Extension(name)) == KindName(r.value)
  {
    KindOfExtension(LowerAscii(Extension(name)))
  }

  /** `upload_and_extract_text`: nothing without an upload, nothing for an
      unsupported format, otherwise the cleaned text of the extractor chosen
      by the format. `extract` stands for the three extractors applied to the
      uploaded file. */
  function UploadAndExtract(upload: Option<string>, extract: FileKind -> string): (r: Option<string>)
    ensures r.Some? <==> upload.Some? && KindOf(upload.value).Some?
    ensures r.Some? ==> IsSubsequence(r.value, extract(KindOf(upload.value).value))
  {
    match upload
    case None => None
    case Some(name) =>
      match KindOf(name)
      case None => None
      case Some(kind) => Some(CleanMarkdownFormatting(extract(kind)))
  }

  /** A dot-free first part is cut off together with its dot. */
  lemma ExtensionAfterDot(a: string, rest: string)
    requires '.' !in a
    ensures Extension(a + Dot + rest) == Extension(rest)
  {
    var pieces, tail := Split(a + Dot + rest, Dot), Split(rest, Dot);
    SplitAfterPiece(a, Dot, rest);
    SplitNonEmpty(rest, Dot);
    LastOfCons(pieces, a, tail);
  }

  /** A name without a dot is its own extension. */
  lemma ExtensionNoDot(name: string)
    requires '.' !in name
    ensures Extension(name) == name
  {
    SplitLastPiece(name, Dot);
  }

  /** Upper-case extensions are accepted. */
  lemma UpperCaseAccepted()
    ensures KindOf("Lezione.PDF") == Some(Pdf)
  {
    var ext := "PDF";
    assert LowerAscii(ext) == "pdf";
    assert "Lezione.PDF" == "Lezione" + Dot + ext;
    ExtensionAfterDot("Lezione", ext);
    ExtensionNoDot(ext);
  }

  /** Only the part after the last dot counts. */
  lemma LastDotCounts()
    ensures KindOf("archivio.tar.gz").None?
  {
    var ext := "gz";
    assert LowerAscii(ext) == ext;
    assert "archivio.tar.gz" == "archivio" + Dot + ("tar" + Dot + ext);
    ExtensionAfterDot("archivio", "tar" + Dot + ext);
    ExtensionAfterDot("tar", ext);
    ExtensionNoDot(ext);
  }

  /** The older Word format is refused. */
  lemma OldWordRefused()
    ensures KindOf("relazione.doc").None?
  {
    var ext := "doc";
    assert LowerAscii(ext) == ext;
    assert KindOfExtension(ext).None?;
    assert "relazione.doc" == "relazione" + Dot + ext;
    ExtensionAfterDot("relazione", ext);
    ExtensionNoDot(ext);
  }

  /** A name without a dot is its own extension, so a file called just
      `txt` is taken for a text file. */
  lemma NoDotName()
    ensures KindOf("txt") == Some(Txt)
  {
    var name := "txt";
    ExtensionNoDot(name);
    assert LowerAscii(name) == name;
  }
}

=== FILE: markdown.dfy ===
/** The markdown cleaner: five regular-expression substitutions applied in a
    fixed order, each written out as a left-to-right rewriting of the text
    with the semantics of Python's `re.sub`: the leftmost match wins, matches
    do not overlap, scanning resumes after the replaced text, `.*?` takes as
    few characters as it can and `.` never matches a line feed. */
module Markdown {
  import opened Wrappers
  import opened Text

  const Bold := "**"
  const Italic := "*"
  const Level2 := "##"
  const Level1 := "#"
  const LineFeed := "\n"

  /** Where the lazy group `(.*?)` ends when `close` must follow it: the first
      occurrence of `close` in `t` with no line feed before it. */
  function LazyClose(t: string, close: string): (r: Option<nat>)
    requires close != []
    ensures r.Some? ==> OccursAt(t, r.value, close)
    decreases |t|
  {
    if |t| < |close| then None
    else if t[..|close|] == close then Some(0)
    else if t[0] == '\n' then None
    else
      match LazyClose(t[1..], close)
      case None => None
      case Some(q) =>
        assert t[q + 1..q + 1 + |close|] == t[1..][q..q + |close|];
        Some(q + 1)
  }

  /** The lazy group stops at the first occurrence of `close`, never crosses
      a line feed, and finds nothing exactly when every occurrence of `close`
      has a line feed before it. */
  lemma {:induction false} LazyCloseCorrect(t: string, close: string)
    requires close != []
    ensures LazyClose(t, close).Some? ==>
      var q := LazyClose(t, close).value;
      (forall i :: 0 <= i < q ==> t[i] != '\n') && (forall p :: 0 <= p < q ==> !OccursAt(t, p, close))
    ensures LazyClose(t, close).None? ==> forall p :: OccursAt(t, p, close) ==> exists i :: 0 <= i < p && t[i] == '\n'
    decreases |t|
  {
    if |t| >= |close| && t[..|close|] != close && t[0] != '\n' {
      OccursAtTail(t, close);
      LazyCloseCorrect(t[1..], close);
      if LazyClose(t, close).None? {
        forall p | OccursAt(t, p, close)
          ensures exists i :: 0 <= i < p && t[i] == '\n'
        {
          if p != 0 {
            var i :| 0 <= i < p - 1 && t[1..][i] == '\n';
            assert t[i + 1] == '\n';
          }
        }
      }
    }
  }

  /** Whether `open(.*?)close` matches at the very start of `s`, and if so
      the length of the lazy group. */
  function MatchAt(s: string, open: string, close: string): (r: Option<nat>)
    requires open != [] && close != []
    ensures r.Some? ==> OccursAt(s, 0, open) && OccursAt(s, |open| + r.value, close)
  {
    var k := |open|;
    if |s| >= k && s[..k] == open then
      match LazyClose(s[k..], close)
      case None => None
      case Some(q) =>
        assert s[k..][q..q + |close|] == s[k + q..k + q + |close|];
        Some(q)
    else None
  }

  /** The closing literal of a match starts right after the lazy group. */
  lemma MatchAtClosing(s: string, open: string, close: string)
    requires open != [] && close != []
    ensures MatchAt(s, open, close).Some? ==> s[|open| + MatchAt(s, open, close).value] == close[0]
  {
    var r := MatchAt(s, open, close);
    assert r.Some? ==> s[|open| + r.value..|open| + r.value + |close|][0] == s[|open| + r.value];
  }

  /** `re.sub(M(.*?)M, r'\1', s)`: each pair of markers `M` enclosing a
      same-line run is replaced by the run. Only characters of `M` are ever
      deleted. */
  function MarkerPairPass(s: string, marker: string): string
    requires marker != []
    decreases |s|
  {
    var k := |marker|;
    match MatchAt(s, marker, marker)
    case Some(q) => s[k..k + q] + MarkerPairPass(s[k + q + k..], marker)
    case None => if s == [] then [] else [s[0]] + MarkerPairPass(s[1..], marker)
  }

  /** `re.sub(M(.*?)\n, r'\1\n', s)`: a marker `M` followed later on its line
      by a line feed is deleted; the rest of that line, line feed included, is
      copied and not scanned again. Only characters of `M` are ever deleted. */
  function HeadingPass(s: string, marker: string): string
    requires marker != []
    decreases |s|
  {
    var k := |marker|;
    match MatchAt(s, marker, LineFeed)
    case Some(q) => s[k..k + q + 1] + HeadingPass(s[k + q + 1..], marker)
    case None => if s == [] then [] else [s[0]] + HeadingPass(s[1..], marker)
  }

  /** Unfolding a bold or italic pass at a match: the enclosed run, then the
      pass over what follows the closing marker. */
  lemma MarkerPairPassMatched(s: string, marker: string, q: nat, mid: string, tail: string)
    requires marker != [] && MatchAt(s, marker, marker) == Some(q)
    requires s[|marker|..|marker| + q] == mid && s[|marker| + q + |marker|..] == tail
    ensures MarkerPairPass(s, marker) == mid + MarkerPairPass(tail, marker)
  {
  }

  /** Unfolding a bold or italic pass where no match starts: the first
      character, then the pass over the others. */
  lemma MarkerPairPassUnmatched(s: string, marker: string, tail: string)
    requires marker != [] && s != [] && MatchAt(s, marker, marker).None? && s[1..] == tail
    ensures MarkerPairPass(s, marker) == [s[0]] + MarkerPairPass(tail, marker)
  {
  }

  /** Unfolding a heading pass at a match: the copied rest of the line, then
      the pass over the following lines. */
  lemma HeadingPassMatched(s: string, marker: string, q: nat, kept: string, tail: string)
    requires marker != [] && MatchAt(s, marker, LineFeed) == Some(q)
    requires s[|marker|..|marker| + q + 1] == kept && s[|marker| + q + 1..] == tail
    ensures HeadingPass(s, marker) == kept + HeadingPass(tail, marker)
  {
  }

  /** Unfolding a heading pass where no match starts: the first character,
      then the pass over the others. */
  lemma HeadingPassUnmatched(s: string, marker: string, tail: string)
    requires marker != [] && s != [] && MatchAt(s, marker, LineFeed).None? && s[1..] == tail
    ensures HeadingPass(s, marker) == [s[0]] + HeadingPass(tail, marker)
  {
  }

  /** A match of `open(.*?)close` at the start of `s` cuts it into the
      opening marker, the group, the closing marker and the rest. */
  lemma MatchParts(s: string, open: string, close: string, q: nat, mid: string, rest: string)
    requires open != [] && close != [] && MatchAt(s, open, close) == Some(q)
    requires mid == s[|open|..|open| + q] && rest == s[|open| + q + |close|..]
    ensures s == open + mid + close + rest
  {
    assert s[..|open|] == open && s[|open| + q..|open| + q + |close|] == close;
  }

  predicate IsBulletMark(c: char) {
    c == '-' || c == '*'
  }

  /** `re.sub(r'[-*]\s', '', s)`: every `-` or `*` followed by a whitespace
      character is deleted together with that character, wherever it stands.
      Only those two kinds of characters are ever deleted. */
  function BulletPass(s: string): string
    decreases |s|
  {
    if |s| >= 2 && IsBulletMark(s[0]) && IsSpace(s[1]) then BulletPass(s[2..])
    else if s == [] then []
    else [s[0]] + BulletPass(s[1..])
  }

  /** A bullet mark and the whitespace after it go. */
  lemma BulletPassDrop(c: char, w: char, x: string)
    requires IsBulletMark(c) && IsSpace(w)
    ensures BulletPass([c, w] + x) == BulletPass(x)
  {
    assert ([c, w] + x)[2..] == x;
  }

  /** Any other character stays. */
  lemma BulletPassCopy(c: char, x: string)
    requires !IsBulletMark(c) || x == [] || !IsSpace(x[0])
    ensures BulletPass([c] + x) == [c] + BulletPass(x)
  {
    assert ([c] + x)[1..] == x;
  }

  /** A bullet mark and the whitespace after it are deleted wherever they
      stand, and the text on either side is cleaned as if the pair were not
      there. */
  lemma {:induction false} BulletPassAround(a: string, c: char, w: char, b: string)
    requires IsBulletMark(c) && IsSpace(w)
    ensures BulletPass(a + [c, w] + b) == BulletPass(a) + BulletPass(b)
    decreases |a|
  {
    if a == [] {
      assert a + [c, w] + b == [c, w] + b;
      BulletPassDrop(c, w, b);
    } else if |a| >= 2 && IsBulletMark(a[0]) && IsSpace(a[1]) {
      var tail := a[2..];
      assert a + [c, w] + b == [a[0], a[1]] + (tail + [c, w] + b);
      assert a == [a[0], a[1]] + tail;
      BulletPassDrop(a[0], a[1], tail + [c, w] + b);
      BulletPassDrop(a[0], a[1], tail);
      BulletPassAround(tail, c, w, b);
    } else {
      var tail := a[1..];
      var x := tail + [c, w] + b;
      assert a + [c, w] + b == [a[0]] + x;
      assert a == [a[0]] + tail;
      if |a| == 1 {
        assert x[0] == c && !IsSpace(c);
      } else {
        assert x[0] == a[1];
      }
      BulletPassCopy(a[0], x);
      BulletPassCopy(a[0], tail);
      BulletPassAround(tail, c, w, b);
    }
  }

  /** The first four substitutions: bold, italic, level-2 and level-1
      headings. They delete only `*` and `#`, so every line feed survives. */
  function RemoveEmphasisAndHeadings(s: string): string
  {
    HeadingPass(HeadingPass(MarkerPairPass(MarkerPairPass(s, Bold), Italic), Level2), Level1)
  }

  /** `clean_markdown_formatting`. */
  function CleanMarkdownFormatting(s: string): (r: string)
    ensures IsSubsequence(r, s) && |r| <= |s|
  {
    CleanIsSubsequence(s);
    BulletPass(RemoveEmphasisAndHeadings(s))
  }

  // ---------------------------------------------------------------------------
  // What each pass may delete.

  /** Deleting the two markers around `mid` changes no count of a character
      outside the marker. */
  lemma KeepsUnwrap(s: string, out: string, mid: string, rest: string, outRest: string, marker: string)
    requires s == marker + mid + marker + rest && out == mid + outRest
    requires forall c :: c !in marker ==> multiset(outRest)[c] == multiset(rest)[c]
    ensures forall c :: c !in marker ==> multiset(out)[c] == multiset(s)[c]
  {
    forall c | c !in marker
      ensures multiset(out)[c] == multiset(s)[c]
    {
      assert multiset(marker)[c] == 0;
    }
  }

  lemma {:induction false} MarkerPairPassKeeps(s: string, marker: string)
    requires marker != []
    ensures forall c :: c !in marker ==> multiset(MarkerPairPass(s, marker))[c] == multiset(s)[c]
    decreases |s|
  {
    var k := |marker|;
    var m := MatchAt(s, marker, marker);
    if m.Some? {
      var q := m.value;
      var mid, rest := s[k..k + q], s[k + q + k..];
      MatchParts(s, marker, marker, q, mid, rest);
      MarkerPairPassMatched(s, marker, q, mid, rest);
      MarkerPairPassKeeps(rest, marker);
      KeepsUnwrap(s, MarkerPairPass(s, marker), mid, rest, MarkerPairPass(rest, marker), marker);
    } else if s != [] {
      MarkerPairPassUnmatched(s, marker, s[1..]);
      MarkerPairPassKeeps(s[1..], marker);
      KeepsCons(s, MarkerPairPass(s, marker), MarkerPairPass(s[1..], marker), marker);
    }
  }

  /** Copying the first character changes no count. */
  lemma KeepsCons(s: string, out: string, outRest: string, marker: string)
    requires s != [] && out == [s[0]] + outRest
    requires forall c :: c !in marker ==> multiset(outRest)[c] == multiset(s[1..])[c]
    ensures forall c :: c !in marker ==> multiset(out)[c] == multiset(s)[c]
  {
    assert s == [s[0]] + s[1..];
  }

  lemma {:induction false} HeadingPassKeeps(s: string, marker: string)
    requires marker != []
    ensures forall c :: c !in marker ==> multiset(HeadingPass(s, marker))[c] == multiset(s)[c]
    decreases |s|
  {
    var k := |marker|;
    var m := MatchAt(s, marker, LineFeed);
    if m.Some? {
      var q := m.value;
      var line, rest := s[k..k + q + 1], s[k + q + 1..];
      assert s == marker + line + rest;
      HeadingPassMatched(s, marker, q, line, rest);
      HeadingPassKeeps(rest, marker);
    } else if s != [] {
      HeadingPassUnmatched(s, marker, s[1..]);
      HeadingPassKeeps(s[1..], marker);
      KeepsCons(s, HeadingPass(s, marker), HeadingPass(s[1..], marker), marker);
    }
  }

  lemma {:induction false} BulletPassKeeps(s: string)
    ensures forall c :: !IsBulletMark(c) && !IsSpace(c) ==> multiset(BulletPass(s))[c] == multiset(s)[c]
    decreases |s|
  {
    if |s| >= 2 && IsBulletMark(s[0]) && IsSpace(s[1]) {
      assert s == [s[0], s[1]] + s[2..];
      BulletPassKeeps(s[2..]);
    } else if s != [] {
      assert s == [s[0]] + s[1..];
      BulletPassKeeps(s[1..]);
    }
  }

  /** The first four substitutions delete only `*` and `#`: every other
      character, the line feeds among them, keeps its number of occurrences. */
  lemma EmphasisAndHeadingsKeep(s: string)
    ensures forall c :: c != '*' && c != '#' ==> multiset(RemoveEmphasisAndHeadings(s))[c] == multiset(s)[c]
  {
    var s1 := MarkerPairPass(s, Bold);
    var s2 := MarkerPairPass(s1, Italic);
    var s3 := HeadingPass(s2, Level2);
    MarkerPairPassKeeps(s, Bold);
    MarkerPairPassKeeps(s1, Italic);
    HeadingPassKeeps(s2, Level2);
    HeadingPassKeeps(s3, Level1);
  }

  // ---------------------------------------------------------------------------
  // Every pass only deletes characters.

  /** Deleting the two markers around `mid` keeps a subsequence. */
  lemma SubsequenceUnwrap(out: string, rest: string, mid: string, marker: string)
    requires IsSubsequence(out, rest)
    ensures IsSubsequence(mid + out, marker + mid + marker + rest)
  {
    assert marker + mid + marker + rest == marker + (mid + (marker + rest));
    SubsequenceDropPrefix(out, rest, marker);
    SubsequenceKeepPrefix(out, marker + rest, mid);
    SubsequenceDropPrefix(mid + out, mid + (marker + rest), marker);
  }

  lemma {:induction false} MarkerPairPassSubsequence(s: string, marker: string)
    requires marker != []
    ensures IsSubsequence(MarkerPairPass(s, marker), s)
    decreases |s|
  {
    var k := |marker|;
    var m := MatchAt(s, marker, marker);
    if m.Some? {
      var q := m.value;
      var mid, rest := s[k..k + q], s[k + q + k..];
      MatchParts(s, marker, marker, q, mid, rest);
      MarkerPairPassMatched(s, marker, q, mid, rest);
      MarkerPairPassSubsequence(rest, marker);
      SubsequenceUnwrap(MarkerPairPass(rest, marker), rest, mid, marker);
    } else if s != [] {
      MarkerPairPassUnmatched(s, marker, s[1..]);
      MarkerPairPassSubsequence(s[1..], marker);
      SubsequenceKeepPrefix(MarkerPairPass(s[1..], marker), s[1..], [s[0]]);
      assert [s[0]] + s[1..] == s;
    }
  }

  lemma {:induction false} HeadingPassSubsequence(s: string, marker: string)
    requires marker != []
    ensures IsSubsequence(HeadingPass(s, marker), s)
    decreases |s|
  {
    var k := |marker|;
    var m := MatchAt(s, marker, LineFeed);
    if m.Some? {
      var q := m.value;
      var line, rest := s[k..k + q + 1], s[k + q + 1..];
      assert s == marker + (line + rest);
      HeadingPassMatched(s, marker, q, line, rest);
      HeadingPassSubsequence(rest, marker);
      SubsequenceKeepPrefix(HeadingPass(rest, marker), rest, line);
      SubsequenceDropPrefix(line + HeadingPass(rest, marker), line + rest, marker);
    } else if s != [] {
      HeadingPassUnmatched(s, marker, s[1..]);
      HeadingPassSubsequence(s[1..], marker);
      SubsequenceKeepPrefix(HeadingPass(s[1..], marker), s[1..], [s[0]]);
      assert [s[0]] + s[1..] == s;
    }
  }

  lemma {:induction false} BulletPassSubsequence(s: string)
    ensures IsSubsequence(BulletPass(s), s)
    decreases |s|
  {
    if |s| >= 2 && IsBulletMark(s[0]) && IsSpace(s[1]) {
      BulletPassSubsequence(s[2..]);
      SubsequenceDropPrefix(BulletPass(s[2..]), s[2..], s[..2]);
      assert s[..2] + s[2..] == s;
    } else if s != [] {
      BulletPassSubsequence(s[1..]);
      SubsequenceKeepPrefix(BulletPass(s[1..]), s[1..], [s[0]]);
      assert [s[0]] + s[1..] == s;
    }
  }

  /** The cleaner's output is the input with some characters deleted. */
  lemma CleanIsSubsequence(s: string)
    ensures IsSubsequence(BulletPass(RemoveEmphasisAndHeadings(s)), s)
    ensures |BulletPass(RemoveEmphasisAndHeadings(s))| <= |s|
  {
    var s1 := MarkerPairPass(s, Bold);
    var s2 := MarkerPairPass(s1, Italic);
    var s3 := HeadingPass(s2, Level2);
    var s4 := HeadingPass(s3, Level1);
    var s5 := BulletPass(s4);
    MarkerPairPassSubsequence(s, Bold);
    MarkerPairPassSubsequence(s1, Italic);
    HeadingPassSubsequence(s2, Level2);
    HeadingPassSubsequence(s3, Level1);
    BulletPassSubsequence(s4);
    SubsequenceTrans(s5, s4, s3);
    SubsequenceTrans(s5, s3, s2);
    SubsequenceTrans(s5, s2, s1);
    SubsequenceTrans(s5, s1, s);
    SubsequenceLength(s5, s);
  }
}

module MarkdownLemmas {
  import opened Wrappers
  import opened Text
  import opened Markdown

  // ---------------------------------------------------------------------------
  // Text free of markup is left alone.

  lemma {:induction false} MarkerPairPassNoMarker(s: string, marker: string)
    requires marker != [] && marker[0] !in s
    ensures MarkerPairPass(s, marker) == s
    decreases |s|
  {
    if s != [] {
      assert |s| >= |marker| ==> s[..|marker|][0] == s[0];
      assert MatchAt(s, marker, marker).None?;
      MarkerPairPassNoMarker(s[1..], marker);
      assert [s[0]] + s[1..] == s;
    }
  }

  lemma {:induction false} HeadingPassNoMarker(s: string, marker: string)
    requires marker != [] && marker[0] !in s
    ensures HeadingPass(s, marker) == s
    decreases |s|
  {
    if s != [] {
      assert |s| >= |marker| ==> s[..|marker|][0] == s[0];
      assert MatchAt(s, marker, LineFeed).None?;
      HeadingPassNoMarker(s[1..], marker);
      assert [s[0]] + s[1..] == s;
    }
  }

  /** No `*` at all and no `-` directly followed by whitespace. */
  predicate NoBulletMarks(s: string) {
    '*' !in s && forall i :: 0 <= i < |s| - 1 && s[i] == '-' ==> !IsSpace(s[i + 1])
  }

  lemma NoDashNoBulletMarks(s: string)
    requires '-' !in s && '*' !in s
    ensures NoBulletMarks(s)
  {
  }

  lemma {:induction false} BulletPassNoMarker(s: string)
    requires NoBulletMarks(s)
    ensures BulletPass(s) == s
    decreases |s|
  {
    if s != [] {
      assert NoBulletMarks(s[1..]) by {
        forall i | 0 <= i < |s[1..]| - 1 && s[1..][i] == '-'
          ensures !IsSpace(s[1..][i + 1])
        {
          assert s[1..][i] == s[i + 1] && s[1..][i + 1] == s[i + 2];
        }
      }
      BulletPassNoMarker(s[1..]);
      assert [s[0]] + s[1..] == s;
    }
  }

  /** Text with no `*`, no `#` and no `-` followed by whitespace is a fixed
      point of the cleaner. */
  lemma CleanPlainText(s: string)
    requires '*' !in s && '#' !in s && NoBulletMarks(s)
    ensures CleanMarkdownFormatting(s) == s
  {
    MarkerPairPassNoMarker(s, Bold);
    MarkerPairPassNoMarker(s, Italic);
    HeadingPassNoMarker(s, Level2);
    HeadingPassNoMarker(s, Level1);
    BulletPassNoMarker(s);
  }

  // ---------------------------------------------------------------------------
  // Headings: one marker per line, the first one, on lines ending in '\n'.

  /** `line` with the leftmost occurrence of `marker` (if any) deleted. */
  function RemoveFirst(line: string, marker: string): (r: string)
    requires marker != []
  {
    CutAt(line, Find(line, marker), |marker|)
  }

  /** `line` with the `k` characters at `at` deleted, or unchanged. */
  function CutAt(line: string, at: Option<nat>, k: nat): string
    requires at.Some? ==> at.value + k <= |line|
  {
    match at
    case None => line
    case Some(i) => line[..i] + line[i + k..]
  }

  /** Cutting one character later in `line` than in its tail. */
  lemma CutAtCons(line: string, at: Option<nat>, k: nat)
    requires line != [] && (at.Some? ==> at.value + k <= |line| - 1)
    ensures CutAt(line, if at.None? then None else Some(at.value + 1), k) == [line[0]] + CutAt(line[1..], at, k)
  {
    if at.Some? {
      var i := at.value;
      assert line[..i + 1] == [line[0]] + line[1..][..i];
      assert line[i + 1 + k..] == line[1..][i + k..];
    } else {
      assert [line[0]] + line[1..] == line;
    }
  }

  lemma RemoveFirstCons(line: string, marker: string)
    requires marker != [] && line != [] && !OccursAt(line, 0, marker)
    ensures RemoveFirst(line, marker) == [line[0]] + RemoveFirst(line[1..], marker)
  {
    var at := Find(line[1..], marker);
    FindTail(line, marker);
    CutAtCons(line, at, |marker|);
  }

  /** The lazy group stops at the first `close` when nothing before it on
      the line could start one. */
  lemma {:induction false} LazyCloseAfter(x: string, close: string, rest: string)
    requires close != [] && close[0] !in x && '\n' !in x
    ensures LazyClose(x + close + rest, close) == Some(|x|)
    decreases |x|
  {
    var t := x + close + rest;
    if x == [] {
      assert t == close + rest && t[..|close|] == close;
    } else {
      assert t[..|close|][0] == x[0];
      assert t[1..] == x[1..] + close + rest;
      LazyCloseAfter(x[1..], close, rest);
    }
  }

  /** A bold or italic pair on one line is replaced by the text it encloses,
      wherever it stands after text free of the marker's character. */
  lemma {:induction false} MarkerPairPassPair(a: string, x: string, rest: string, marker: string)
    requires marker != [] && marker[0] !in a && marker[0] !in x && '\n' !in x
    ensures MarkerPairPass(a + marker + x + marker + rest, marker) == a + x + MarkerPairPass(rest, marker)
    decreases |a|
  {
    if a == [] {
      assert a + marker + x + marker + rest == marker + x + marker + rest;
      PairBase(x, rest, marker);
    } else {
      MarkerPairPassPair(a[1..], x, rest, marker);
      PairStep(a, x, rest, marker);
    }
  }

  /** A pair at the very start is replaced by the text it encloses. */
  lemma PairBase(x: string, rest: string, marker: string)
    requires marker != [] && marker[0] !in x && '\n' !in x
    ensures MarkerPairPass(marker + x + marker + rest, marker) == x + MarkerPairPass(rest, marker)
  {
    var s := marker + x + marker + rest;
    PairSlices(x, rest, marker);
    LazyCloseAfter(x, marker, rest);
    MatchAtStart(s, marker, marker, |x|);
    MarkerPairPassMatched(s, marker, |x|, x, rest);
  }

  /** Where the parts of `marker + x + marker + rest` sit. */
  lemma PairSlices(x: string, rest: string, marker: string)
    ensures var s, k := marker + x + marker + rest, |marker|;
      s[..k] == marker && s[k..] == x + marker + rest &&
      s[k..k + |x|] == x && s[k + |x| + k..] == rest
  {
    var s, k := marker + x + marker + rest, |marker|;
    assert s[k..] == x + marker + rest;
  }

  /** One character before the pair that cannot open a match is copied. */
  lemma PairStep(a: string, x: string, rest: string, marker: string)
    requires marker != [] && a != [] && a[0] != marker[0]
    requires MarkerPairPass(a[1..] + marker + x + marker + rest, marker) == a[1..] + x + MarkerPairPass(rest, marker)
    ensures MarkerPairPass(a + marker + x + marker + rest, marker) == a + x + MarkerPairPass(rest, marker)
  {
    var s := a + marker + x + marker + rest;
    var tail := a[1..] + marker + x + marker + rest;
    ConsTail(a, marker + x + marker + rest);
    assert s == a + (marker + x + marker + rest) && tail == a[1..] + (marker + x + marker + rest);
    FirstCannotOpen(s, marker);
    MarkerPairPassUnmatched(s, marker, tail);
    ConsTail3(a, x, MarkerPairPass(rest, marker));
  }

  /** Splitting off the first character of a non-empty prefix. */
  lemma ConsTail(a: string, y: string)
    requires a != []
    ensures (a + y)[0] == a[0] && (a + y)[1..] == a[1..] + y
  {
  }

  lemma ConsTail3(a: string, x: string, r: string)
    requires a != []
    ensures [a[0]] + (a[1..] + x + r) == a + x + r
  {
    assert a == [a[0]] + a[1..];
  }

  /** Text whose first character differs from the marker's cannot open a pair. */
  lemma FirstCannotOpen(s: string, marker: string)
    requires marker != [] && s != [] && s[0] != marker[0]
    ensures MatchAt(s, marker, marker).None?
  {
    if |s| >= |marker| {
      assert s[..|marker|][0] == s[0];
    }
  }

  /** Text in which the marker never occurs passes a bold or italic pass
      unchanged, even if it holds the marker's character. */
  lemma {:induction false} MarkerPairPassNoOccurrence(s: string, marker: string)
    requires marker != [] && forall p :: !OccursAt(s, p, marker)
    ensures MarkerPairPass(s, marker) == s
    decreases |s|
  {
    if s != [] {
      assert !OccursAt(s, 0, marker);
      OccursAtTail(s, marker);
      assert forall p :: !OccursAt(s[1..], p, marker) by {
        forall p
          ensures !OccursAt(s[1..], p, marker)
        {
          assert !OccursAt(s, p + 1, marker);
        }
      }
      MarkerPairPassNoOccurrence(s[1..], marker);
      MarkerPairPassUnmatched(s, marker, s[1..]);
      assert [s[0]] + s[1..] == s;
    }
  }

  lemma HeadingPassLineMatched(line: string, rest: string, marker: string)
    requires marker != [] && '\n' !in line && OccursAt(line, 0, marker)
    ensures HeadingPass(line + "\n" + rest, marker) == RemoveFirst(line, marker) + "\n" + HeadingPass(rest, marker)
  {
    var k := |marker|;
    var s := line + "\n" + rest;
    var kept := line[k..] + "\n";
    LineDrop(line, rest, k);
    LazyCloseAfter(line[k..], LineFeed, rest);
    MatchAtStart(s, marker, LineFeed, |line| - k);
    LineParts(line, rest, k);
    HeadingPassMatched(s, marker, |line| - k, kept, rest);
    RemoveFirstAtStart(line, marker);
  }

  /** A match starts where the opening marker does and its group closes. */
  lemma MatchAtStart(s: string, open: string, close: string, q: nat)
    requires open != [] && close != [] && |open| <= |s| && s[..|open|] == open
    requires LazyClose(s[|open|..], close) == Some(q)
    ensures MatchAt(s, open, close) == Some(q)
  {
  }

  lemma LineParts(line: string, rest: string, k: nat)
    requires k <= |line|
    ensures (line + "\n" + rest)[..k] == line[..k]
    ensures (line + "\n" + rest)[k..|line| + 1] == line[k..] + "\n"
    ensures (line + "\n" + rest)[|line| + 1..] == rest
  {
  }

  /** A marker at the very start of the line is the one removed. */
  lemma RemoveFirstAtStart(line: string, marker: string)
    requires marker != [] && OccursAt(line, 0, marker)
    ensures RemoveFirst(line, marker) == line[|marker|..]
  {
    assert line[..|marker|] == marker;
    assert Find(line, marker) == Some(0);
  }

  lemma HeadingPassLineUnmatched(line: string, rest: string, marker: string)
    requires marker != [] && '\n' !in marker && '\n' !in line && !OccursAt(line, 0, marker)
    ensures MatchAt(line + "\n" + rest, marker, LineFeed).None?
  {
    var k := |marker|;
    var s := line + "\n" + rest;
    assert |line| < k <= |s| ==> s[..k][|line|] == '\n';
    assert |line| >= k ==> s[..k] == line[..k];
  }

  lemma HeadingPassLineStep(line: string, rest: string, marker: string)
    requires marker != [] && line != [] && MatchAt(line + "\n" + rest, marker, LineFeed).None?
    requires !OccursAt(line, 0, marker)
    requires HeadingPass(line[1..] + "\n" + rest, marker) == RemoveFirst(line[1..], marker) + "\n" + HeadingPass(rest, marker)
    ensures HeadingPass(line + "\n" + rest, marker) == RemoveFirst(line, marker) + "\n" + HeadingPass(rest, marker)
  {
    var tail := line[1..] + "\n" + rest;
    LineTail(line, rest);
    HeadingPassUnmatched(line + "\n" + rest, marker, tail);
    RemoveFirstCons(line, marker);
    Splice(HeadingPass(line + "\n" + rest, marker), RemoveFirst(line, marker), [line[0]],
      RemoveFirst(line[1..], marker), HeadingPass(rest, marker), HeadingPass(tail, marker));
  }

  lemma HeadingPassLineEmpty(rest: string, marker: string)
    requires marker != [] && MatchAt("\n" + rest, marker, LineFeed).None?
    ensures HeadingPass("\n" + rest, marker) == RemoveFirst([], marker) + "\n" + HeadingPass(rest, marker)
  {
    assert ("\n" + rest)[1..] == rest;
    HeadingPassUnmatched("\n" + rest, marker, rest);
    assert Find([], marker).None?;
  }

  /** A heading pass deletes the first marker of a line terminated by '\n'
      and nothing else on that line, then goes on with the next line. */
  lemma {:induction false} HeadingPassLine(line: string, rest: string, marker: string)
    requires marker != [] && '\n' !in marker && '\n' !in line
    ensures HeadingPass(line + "\n" + rest, marker) == RemoveFirst(line, marker) + "\n" + HeadingPass(rest, marker)
    decreases |line|
  {
    if OccursAt(line, 0, marker) {
      HeadingPassLineMatched(line, rest, marker);
    } else {
      HeadingPassLineUnmatched(line, rest, marker);
      if line == [] {
        assert line + "\n" + rest == "\n" + rest;
        HeadingPassLineEmpty(rest, marker);
      } else {
        HeadingPassLine(line[1..], rest, marker);
        HeadingPassLineStep(line, rest, marker);
      }
    }
  }

  /** The last line of the text, when it has no '\n' after it, keeps its marker. */
  lemma {:induction false} HeadingPassLastLine(s: string, marker: string)
    requires marker != [] && '\n' !in s
    ensures HeadingPass(s, marker) == s
    decreases |s|
  {
    if s != [] {
      MatchAtClosing(s, marker, LineFeed);
      assert MatchAt(s, marker, LineFeed).None?;
      HeadingPassLastLine(s[1..], marker);
      assert [s[0]] + s[1..] == s;
    }
  }

  /** The text after the first character of a line, the line feed and the rest. */
  lemma LineTail(line: string, rest: string)
    requires line != []
    ensures (line + "\n" + rest)[1..] == line[1..] + "\n" + rest
  {
  }

  /** The text after a prefix of length `n` of a line, the line feed and the rest. */
  lemma LineDrop(line: string, rest: string, n: nat)
    requires n <= |line|
    ensures (line + "\n" + rest)[n..] == line[n..] + "\n" + rest
  {
  }

  lemma Splice(whole: string, head: string, mid: string, a: string, b: string, x: string)
    requires whole == mid + x && x == a + "\n" + b && head == mid + a
    ensures whole == head + "\n" + b
  {
  }
}

/** The cleaner on small inputs. */
module MarkdownExamples {
  import opened Wrappers
  import opened Text
  import opened Markdown
  import opened MarkdownLemmas

  /** Text without `*` or `#` goes through the first four passes unchanged. */
  lemma NoEmphasisNoHeadings(s: string)
    requires '*' !in s && '#' !in s
    ensures RemoveEmphasisAndHeadings(s) == s
  {
    MarkerPairPassNoMarker(s, Bold);
    MarkerPairPassNoMarker(s, Italic);
    HeadingPassNoMarker(s, Level2);
    HeadingPassNoMarker(s, Level1);
  }

  /** A same-line run between `**` markers keeps only the run. */
  lemma CleanBoldRun(x: string)
    requires '\n' !in x && '#' !in x && '*' !in x && NoBulletMarks(x)
    ensures CleanMarkdownFormatting("**" + x + "**") == x
  {
    var s := Bold + x + Bold;
    assert s[..2] == Bold && s[2..] == x + Bold + [];
    LazyCloseAfter(x, Bold, []);
    assert MatchAt(s, Bold, Bold) == Some(|x|);
    MarkerPairPassMatched(s, Bold, |x|, x, []);
    assert MarkerPairPass([], Bold) == [];
    assert MarkerPairPass(s, Bold) == x;
    MarkerPairPassNoMarker(x, Italic);
    HeadingPassNoMarker(x, Level2);
    HeadingPassNoMarker(x, Level1);
    assert RemoveEmphasisAndHeadings(s) == x;
    BulletPassNoMarker(x);
  }

  /** An italic pair inside a line of plain text is replaced by the text it
      encloses; the bold pass before it finds no `**` and leaves it alone. */
  lemma CleanItalicIn(a: string, x: string, b: string)
    requires x != [] && '\n' !in x
    requires '*' !in a && '*' !in x && '*' !in b && '#' !in a && '#' !in x && '#' !in b
    requires NoBulletMarks(a + x + b)
    ensures CleanMarkdownFormatting(a + "*" + x + "*" + b) == a + x + b
  {
    var s := a + Italic + x + Italic + b;
    NoBoldInItalic(a, x, b);
    MarkerPairPassNoOccurrence(s, Bold);
    MarkerPairPassPair(a, x, b, Italic);
    MarkerPairPassNoMarker(b, Italic);
    var plain := a + x + b;
    HeadingPassNoMarker(plain, Level2);
    HeadingPassNoMarker(plain, Level1);
    BulletPassNoMarker(plain);
  }

  /** Two single stars around a non-empty star-free run never touch. */
  lemma NoBoldInItalic(a: string, x: string, b: string)
    requires x != [] && '*' !in a && '*' !in x && '*' !in b
    ensures forall p :: !OccursAt(a + "*" + x + "*" + b, p, Bold)
  {
    var s := a + "*" + x + "*" + b;
    assert |Bold| == 2;
    forall p
      ensures !OccursAt(s, p, Bold)
    {
      if p < 0 || p + 2 > |s| {
      } else if p < |a| {
        assert s[p..p + 2][0] == a[p];
      } else if p == |a| {
        assert s[p..p + 2][1] == x[0];
      } else if p <= |a| + |x| {
        assert s[p..p + 2][0] == x[p - |a| - 1];
      } else if p == |a| + |x| + 1 {
        assert s[p..p + 2][1] == b[0];
      } else {
        assert s[p..p + 2][0] == b[p - |a| - |x| - 2];
      }
    }
  }

  lemma CleanItalic()
    ensures CleanMarkdownFormatting("a *b* c") == "a b c"
  {
    var a, x, b := "a ", "b", " c";
    assert a + "*" + x + "*" + b == "a *b* c";
    assert a + x + b == "a b c";
    NoDashNoBulletMarks(a + x + b);
    CleanItalicIn(a, x, b);
  }

  lemma CleanBold()
    ensures CleanMarkdownFormatting("**x**") == "x"
  {
    CleanBoldRun("x");
    assert "**" + "x" + "**" == "**x**";
  }

  /** A level-2 heading line loses its `##` and nothing else: the space
      after the marker and the line feed stay. */
  lemma CleanHeadingLine(title: string)
    requires '\n' !in title && '#' !in title && '*' !in title && NoBulletMarks(title + "\n")
    ensures CleanMarkdownFormatting("##" + title + "\n") == title + "\n"
  {
    var line := "##" + title;
    var s := line + "\n";
    assert s == line + "\n" + [];
    MarkerPairPassNoMarker(s, Bold);
    MarkerPairPassNoMarker(s, Italic);
    HeadingPassLine(line, [], Level2);
    assert line[..2] == Level2;
    assert Find(line, Level2) == Some(0);
    assert RemoveFirst(line, Level2) == title;
    assert HeadingPass([], Level2) == [];
    assert HeadingPass(s, Level2) == title + "\n";
    HeadingPassNoMarker(title + "\n", Level1);
    BulletPassNoMarker(title + "\n");
    assert RemoveEmphasisAndHeadings(s) == title + "\n";
  }

  lemma CleanHeading()
    ensures CleanMarkdownFormatting("## Titolo\n") == " Titolo\n"
  {
    var title := " Titolo";
    assert "##" + title + "\n" == "## Titolo\n";
    NoDashNoBulletMarks(title + "\n");
    CleanHeadingLine(title);
  }

  /** A dash and the space after it go. */
  lemma CleanDash(x: string)
    requires '#' !in x && '*' !in x && NoBulletMarks(x)
    ensures CleanMarkdownFormatting("- " + x) == x
  {
    var s := "- " + x;
    NoEmphasisNoHeadings(s);
    assert s == ['-', ' '] + x;
    BulletPassDrop('-', ' ', x);
    BulletPassNoMarker(x);
  }

  lemma CleanBullet()
    ensures CleanMarkdownFormatting("- voce") == "voce"
  {
    NoDashNoBulletMarks("voce");
    CleanDash("voce");
    assert "- " + "voce" == "- voce";
  }

  /** A dash before a bullet survives the pass that removes the bullet. */
  lemma CleanNestedDash()
    ensures CleanMarkdownFormatting("--  x") == "- x"
  {
    var tail := " x";
    var bullet := ['-', ' '] + tail;
    var s := ['-'] + bullet;
    assert s == "--  x" && ['-'] + tail == "- x";
    NoEmphasisNoHeadings(s);
    BulletPassCopy('-', bullet);
    BulletPassDrop('-', ' ', tail);
    NoDashNoBulletMarks(tail);
    BulletPassNoMarker(tail);
  }

  /** Cleaning twice can remove more than cleaning once. */
  lemma CleanNotIdempotent()
    ensures CleanMarkdownFormatting(CleanMarkdownFormatting("--  x")) == "x"
  {
    CleanNestedDash();
    NoDashNoBulletMarks("x");
    CleanDash("x");
    assert "- " + "x" == "- x";
  }
}

=== FILE: orchestrator.dfy ===
/** One language-model call per segment, and the loop that keeps what the
    calls produced. The model itself is an oracle: `answers(i)` is what the
    `i`-th call returned. */
module Orchestrator {
  import opened Wrappers
  import opened Text
  import opened Markdown
  import opened MarkdownLemmas

  /** What the model call can hand back: a message carrying text content, or
      something of another kind, described only for the error report. A call
      that raises is not a `Response`: it ends the run and is not modelled. */
  datatype Response = Content(content: string) | Unrecognized(kind: string)

  /** The prompt template as rendered around its single `{text}` slot. */
  datatype Template = Template(head: string, tail: string)

  /** The prompt sent for one segment. */
  function Prompt(template: Template, segment: string): (p: string)
    ensures |p| == |template.head| + |segment| + |template.tail|
  {
    template.head + segment + template.tail
  }

  /** The segment can be read back from its prompt: different segments give
      different prompts. */
  lemma PromptInjective(template: Template, a: string, b: string)
    requires Prompt(template, a) == Prompt(template, b)
    ensures a == b
  {
    var h := |template.head|;
    assert a == Prompt(template, a)[h..h + |a|];
    assert b == Prompt(template, b)[h..h + |b|];
  }

  /** `generate_questions` once the model has answered: content is cleaned of
      markdown, anything else produces nothing. */
  function GenerateQuestions(response: Response): (r: Option<string>)
    ensures r.Some? <==> response.Content?
    ensures r.Some? ==> IsSubsequence(r.value, response.content) && |r.value| <= |response.content|
  {
    match response
    case Content(content) => Some(CleanMarkdownFormatting(content))
    case Unrecognized(_) => None
  }

  /** Content without markup comes back exactly as the model wrote it. */
  lemma GenerateQuestionsPlain(content: string)
    requires '*' !in content && '#' !in content && NoBulletMarks(content)
    ensures GenerateQuestions(Content(content)) == Some(content)
  {
    CleanPlainText(content);
  }

  /** The prompts for the segments, in order. */
  function Prompts(template: Template, segments: seq<string>): (r: seq<string>)
    ensures |r| == |segments|
  {
    if segments == [] then []
    else Prompts(template, segments[..|segments| - 1]) + [Prompt(template, segments[|segments| - 1])]
  }

  /** What the first `n` calls produced, one entry per call. */
  function Results(answers: nat -> Response, n: nat): (r: seq<Option<string>>)
    ensures |r| == n
  {
    if n == 0 then [] else Results(answers, n - 1) + [GenerateQuestions(answers(n - 1))]
  }

  lemma {:induction false} PromptsIndex(template: Template, segments: seq<string>)
    ensures forall i :: 0 <= i < |segments| ==> Prompts(template, segments)[i] == Prompt(template, segments[i])
    decreases |segments|
  {
    if segments != [] {
      var init := segments[..|segments| - 1];
      PromptsIndex(template, init);
      assert forall i :: 0 <= i < |init| ==> init[i] == segments[i];
    }
  }

  lemma {:induction false} ResultsIndex(answers: nat -> Response, n: nat)
    ensures forall i :: 0 <= i < n ==> Results(answers, n)[i] == GenerateQuestions(answers(i))
    decreases n
  {
    if n > 0 {
      var prev := Results(answers, n - 1);
      assert Results(answers, n) == prev + [GenerateQuestions(answers(n - 1))];
      ResultsIndex(answers, n - 1);
      forall i | 0 <= i < n - 1
        ensures Results(answers, n)[i] == GenerateQuestions(answers(i))
      {
        assert Results(answers, n)[i] == prev[i];
      }
    }
  }

  /** One more call adds its entry, if it produced one, at the end. */
  lemma CollectStep(answers: nat -> Response, i: nat)
    ensures Values(Results(answers, i + 1)) ==
      Values(Results(answers, i)) + (if answers(i).Content? then [GenerateQuestions(answers(i)).value] else [])
  {
    var r := Results(answers, i + 1);
    assert r[..i] == Results(answers, i);
  }

  /** One more segment adds its prompt at the end. */
  lemma PromptsStep(template: Template, segments: seq<string>, i: nat)
    requires i < |segments|
    ensures Prompts(template, segments[..i + 1]) == Prompts(template, segments[..i]) + [Prompt(template, segments[i])]
  {
    assert segments[..i + 1][..i] == segments[..i];
  }

  /** The collection loop: every segment is submitted, empty ones included,
      in index order, and only the calls that produced something are kept. */
  method CollectQuestions(template: Template, segments: seq<string>, answers: nat -> Response)
    returns (prompts: seq<string>, questions: seq<string>)
    ensures prompts == Prompts(template, segments)
    ensures questions == Values(Results(answers, |segments|))
    ensures |questions| <= |segments|
  {
    prompts, questions := [], [];
    for i := 0 to |segments|
      invariant prompts == Prompts(template, segments[..i])
      invariant questions == Values(Results(answers, i))
    {
      PromptsStep(template, segments, i);
      CollectStep(answers, i);
      prompts := prompts + [Prompt(template, segments[i])];
      var data := GenerateQuestions(answers(i));
      if data.Some? {
        questions := questions + [data.value];
      }
    }
    assert segments[..|segments|] == segments;
  }

  /** When every call returns content, there is one entry per segment, in
      segment order, each the cleaned content. */
  lemma CollectAllSucceed(answers: nat -> Response, n: nat)
    requires forall i :: 0 <= i < n ==> answers(i).Content?
    ensures |Values(Results(answers, n))| == n
    ensures forall i :: 0 <= i < n ==> Values(Results(answers, n))[i] == CleanMarkdownFormatting(answers(i).content)
  {
    ResultsIndex(answers, n);
    ValuesAllPresent(Results(answers, n));
  }

  /** When only call `k` fails, the entries are the other calls' cleaned
      contents, closed up around the gap in their original order. */
  lemma CollectOneFails(answers: nat -> Response, n: nat, k: nat)
    requires k < n && !answers(k).Content?
    requires forall i :: 0 <= i < n && i != k ==> answers(i).Content?
    ensures |Values(Results(answers, n))| == n - 1
    ensures forall j :: 0 <= j < k ==> Values(Results(answers, n))[j] == CleanMarkdownFormatting(answers(j).content)
    ensures forall j :: k <= j < n - 1 ==> Values(Results(answers, n))[j] == CleanMarkdownFormatting(answers(j + 1).content)
  {
    ResultsIndex(answers, n);
    ValuesOmitOne(Results(answers, n), k);
  }
}

=== FILE: pipeline.dfy ===
/** The two drivers: cut the uploaded text into segments (by delimiter, or
    into a chosen number of chunks), ask for one question per segment, and
    write the numbered document. */
module Pipeline {
  import opened Wrappers
  import opened Markdown
  import opened Segmenter
  import opened Orchestrator
  import opened Assembler
  import opened Ingest

  /** How a run ends. `NoText` covers both a missing upload and an
      unsupported extension. `Written` carries the file name, the document's
      paragraphs and the prompts sent, in order. */
  datatype Outcome =
    | MissingKey
    | NoText
    | NotStarted
    | Written(filename: string, paragraphs: seq<string>, prompts: seq<string>)

  /** The document the drivers write for the first `n` answers: the present
      results, all wrapped as entries. */
  function WrittenParagraphs(answers: nat -> Response, n: nat, style: HeaderStyle): seq<string> {
    Rendered(Present(Values(Results(answers, n))), style)
  }

  /** The delimiter-based driver: an empty key stops the run, then a missing
      or unsupported upload does; otherwise every `+++++` segment is sent and
      the answers are written with dashed headers. */
  method RunDelimited(apiKey: string, upload: Option<string>, extract: FileKind -> string,
                      template: Template, answers: nat -> Response, day: nat, hour: nat)
    returns (outcome: Outcome)
    requires 1 <= day <= 31 && hour <= 23
    ensures apiKey == [] ==> outcome == MissingKey
    ensures apiKey != [] && UploadAndExtract(upload, extract).None? ==> outcome == NoText
    ensures apiKey != [] && UploadAndExtract(upload, extract).Some? ==>
      var segments := Split(UploadAndExtract(upload, extract).value, Delimiter);
      outcome == Written(OutputFilename(day, hour), WrittenParagraphs(answers, |segments|, Dashed), Prompts(template, segments))
  {
    if apiKey == [] {
      return MissingKey;
    }
    var text := UploadAndExtract(upload, extract);
    if text.None? {
      return NoText;
    }
    var segments := Split(text.value, Delimiter);
    var prompts, questions := CollectQuestions(template, segments, answers);
    var doc := WriteQuestionsToDocx(Present(questions), Dashed);
    outcome := Written(OutputFilename(day, hour), doc.paragraphs, prompts);
  }

  /** The chunk-based driver: as above, but the text is cut into `numChunks`
      stripped chunks once the start button is pressed, and the headers are
      plain. */
  method RunChunked(apiKey: string, upload: Option<string>, extract: FileKind -> string,
                    numChunks: nat, pressed: bool,
                    template: Template, answers: nat -> Response, day: nat, hour: nat)
    returns (outcome: Outcome)
    requires 1 <= numChunks <= 50
    requires 1 <= day <= 31 && hour <= 23
    ensures apiKey == [] ==> outcome == MissingKey
    ensures apiKey != [] && UploadAndExtract(upload, extract).None? ==> outcome == NoText
    ensures apiKey != [] && UploadAndExtract(upload, extract).Some? && !pressed ==> outcome == NotStarted
    ensures apiKey != [] && UploadAndExtract(upload, extract).Some? && pressed ==>
      var chunks := StripAll(Slices(UploadAndExtract(upload, extract).value, numChunks, numChunks));
      outcome == Written(OutputFilename(day, hour), WrittenParagraphs(answers, numChunks, Plain), Prompts(template, chunks))
  {
    if apiKey == [] {
      return MissingKey;
    }
    var text := UploadAndExtract(upload, extract);
    if text.None? {
      return NoText;
    }
    if !pressed {
      return NotStarted;
    }
    var chunks := SplitIntoChunks(text.value, numChunks);
    var prompts, questions := CollectQuestions(template, chunks, answers);
    var doc := WriteQuestionsToDocx(Present(questions), Plain);
    outcome := Written(OutputFilename(day, hour), doc.paragraphs, prompts);
  }

  /** When every call returns content, the document holds one block per
      segment, numbered 1..n in segment order, each with that segment's
      cleaned answer. */
  lemma DocumentAllSucceed(answers: nat -> Response, n: nat, style: HeaderStyle)
    requires forall i :: 0 <= i < n ==> answers(i).Content?
    ensures |WrittenParagraphs(answers, n, style)| == 3 * n
    ensures forall i :: 0 <= i < n ==>
      WrittenParagraphs(answers, n, style)[3 * i] == Header(style, i + 1) &&
      WrittenParagraphs(answers, n, style)[3 * i + 1] == CleanMarkdownFormatting(answers(i).content)
  {
    CollectAllSucceed(answers, n);
    RenderedPresent(Values(Results(answers, n)), style);
  }

  /** When only call `k` fails, the document holds `n - 1` blocks numbered
      1..n-1 without a gap or a placeholder, and the other answers keep their
      order. */
  lemma DocumentOneFails(answers: nat -> Response, n: nat, k: nat, style: HeaderStyle)
    requires k < n && !answers(k).Content?
    requires forall i :: 0 <= i < n && i != k ==> answers(i).Content?
    ensures |WrittenParagraphs(answers, n, style)| == 3 * (n - 1)
    ensures forall j :: 0 <= j < n - 1 ==> WrittenParagraphs(answers, n, style)[3 * j] == Header(style, j + 1)
    ensures forall j :: 0 <= j < k ==> WrittenParagraphs(answers, n, style)[3 * j + 1] == CleanMarkdownFormatting(answers(j).content)
    ensures forall j :: k <= j < n - 1 ==> WrittenParagraphs(answers, n, style)[3 * j + 1] == CleanMarkdownFormatting(answers(j + 1).content)
  {
    CollectOneFails(answers, n, k);
    RenderedPresent(Values(Results(answers, n)), style);
  }
}

=== FILE: segmenter.dfy ===
/** Cutting the cleaned text into the segments that are sent to the model one
    at a time: by a literal delimiter (`split_text_by_delimiter`) or into a
    fixed number of equal slices (`split_text_into_chunks`). */
module Segmenter {
  import opened Wrappers
  import opened Text

  /** The separator the first script looks for between segments. */
  const Delimiter := "+++++"

  // ---------------------------------------------------------------------------
  // Splitting on a literal delimiter: Python's `str.split(d)`.

  /** The pieces of `s` between the leftmost non-overlapping occurrences of `d`. */
  function Split(s: string, d: string): seq<string>
    requires d != []
    decreases |s|
  {
    match Find(s, d)
    case None => [s]
    case Some(i) => [s[..i]] + Split(s[i + |d|..], d)
  }

  /** Splitting always yields at least one piece. */
  lemma {:induction false} SplitNonEmpty(s: string, d: string)
    requires d != []
    ensures |Split(s, d)| >= 1
    decreases |s|
  {
    match Find(s, d)
    case None =>
    case Some(i) =>
      SplitNonEmpty(s[i + |d|..], d);
  }

  /** `d.join(pieces)`. */
  function Join(pieces: seq<string>, d: string): string {
    if pieces == [] then []
    else if |pieces| == 1 then pieces[0]
    else pieces[0] + d + Join(pieces[1..], d)
  }

  /** Number of leftmost non-overlapping occurrences of `d`, found by a scan that
      skips over each occurrence it counts. */
  function CountOccurrences(s: string, d: string): nat
    requires d != []
    decreases |s|
  {
    if |s| < |d| then 0
    else if s[..|d|] == d then 1 + CountOccurrences(s[|d|..], d)
    else CountOccurrences(s[1..], d)
  }

  /** Joining the pieces with the delimiter gives back the text exactly. */
  lemma {:induction false} SplitJoin(s: string, d: string)
    requires d != []
    ensures Join(Split(s, d), d) == s
    decreases |s|
  {
    match Find(s, d)
    case None =>
    case Some(i) =>
      var rest := s[i + |d|..];
      SplitJoin(rest, d);
      FindCorrect(s, d);
      SplitFound(s, d, i);
      SplitNonEmpty(rest, d);
      AroundOccurrence(s, d, i, s[..i], rest);
      JoinCons(s[..i], Split(rest, d), d);
  }

  /** Unfolding `Split` at the leftmost occurrence. */
  lemma SplitFound(s: string, d: string, i: nat)
    requires d != [] && Find(s, d) == Some(i)
    ensures Split(s, d) == [s[..i]] + Split(s[i + |d|..], d)
  {
  }

  /** The text is what comes before an occurrence, the occurrence, and what follows. */
  lemma AroundOccurrence(s: string, d: string, i: nat, before: string, rest: string)
    requires OccursAt(s, i, d) && before == s[..i] && rest == s[i + |d|..]
    ensures s == before + d + rest
  {
  }

  /** Joining a piece in front of at least one other puts a delimiter between. */
  lemma JoinCons(piece: string, pieces: seq<string>, d: string)
    requires |pieces| >= 1
    ensures Join([piece] + pieces, d) == piece + d + Join(pieces, d)
  {
    assert ([piece] + pieces)[1..] == pieces;
  }

  /** None of `pieces` contains `d`. */
  ghost predicate PiecesFree(pieces: seq<string>, d: string) {
    forall j, p :: 0 <= j < |pieces| ==> !OccursAt(pieces[j], p, d)
  }

  lemma PiecesFreeCons(piece: string, pieces: seq<string>, d: string)
    requires forall p :: !OccursAt(piece, p, d)
    requires PiecesFree(pieces, d)
    ensures PiecesFree([piece] + pieces, d)
  {
    forall j, p | 0 <= j < |[piece] + pieces|
      ensures !OccursAt(([piece] + pieces)[j], p, d)
    {
      if j > 0 {
        assert ([piece] + pieces)[j] == pieces[j - 1];
      }
    }
  }

  /** No piece contains the delimiter. */
  lemma {:induction false} SplitPiecesFree(s: string, d: string)
    requires d != []
    ensures PiecesFree(Split(s, d), d)
    decreases |s|
  {
    FindCorrect(s, d);
    match Find(s, d)
    case None =>
    case Some(i) =>
      var rest := s[i + |d|..];
      SplitPiecesFree(rest, d);
      forall p
        ensures !OccursAt(s[..i], p, d)
      {
        OccursAtPrefix(s, i, p, d);
      }
      SplitFound(s, d, i);
      PiecesFreeCons(s[..i], Split(rest, d), d);
  }

  /** Occurrences before `i` do not exist, so scanning from `i` counts the same. */
  lemma {:induction false} CountSkip(s: string, d: string, i: nat)
    requires d != [] && i <= |s|
    requires forall p :: 0 <= p < i ==> !OccursAt(s, p, d)
    ensures CountOccurrences(s, d) == CountOccurrences(s[i..], d)
    decreases i
  {
    if i > 0 {
      assert !OccursAt(s, 0, d);
      OccursAtTail(s, d);
      forall p | 0 <= p < i - 1
        ensures !OccursAt(s[1..], p, d)
      {
        assert !OccursAt(s, p + 1, d);
      }
      CountSkip(s[1..], d, i - 1);
      assert s[1..][i - 1..] == s[i..];
    }
  }

  /** There is one more piece than there are delimiters. */
  lemma {:induction false} SplitCount(s: string, d: string)
    requires d != []
    ensures |Split(s, d)| == CountOccurrences(s, d) + 1
    decreases |s|
  {
    FindCorrect(s, d);
    match Find(s, d)
    case None =>
      CountSkip(s, d, |s|);
      assert CountOccurrences(s[|s|..], d) == 0;
    case Some(i) =>
      var rest := s[i + |d|..];
      SplitFound(s, d, i);
      SplitCount(rest, d);
      CountSkip(s, d, i);
      assert s[i..][..|d|] == d;
      assert s[i..][|d|..] == rest;
  }

  /** Text without the delimiter is one piece, the empty text included. */
  lemma SplitNoDelimiter(s: string, d: string)
    requires d != [] && forall p :: !OccursAt(s, p, d)
    ensures Split(s, d) == [s]
  {
    FindCorrect(s, d);
  }

  lemma SplitEmpty()
    ensures Split("", Delimiter) == [""]
  {
  }

  /** A piece free of the delimiter's first character is cut off intact. */
  lemma {:induction false} FindAfterPiece(a: string, d: string, rest: string)
    requires d != [] && d[0] !in a
    ensures Find(a + d + rest, d) == Some(|a|)
    decreases |a|
  {
    var t := a + d + rest;
    if a == [] {
      assert t == d + rest && t[..|d|] == d;
    } else {
      assert t[..|d|][0] == a[0];
      assert t[1..] == a[1..] + d + rest;
      FindAfterPiece(a[1..], d, rest);
    }
  }

  lemma SplitAfterPiece(a: string, d: string, rest: string)
    requires d != [] && d[0] !in a
    ensures Split(a + d + rest, d) == [a] + Split(rest, d)
  {
    var t := a + d + rest;
    FindAfterPiece(a, d, rest);
    SplitFound(t, d, |a|);
    assert t[..|a|] == a && t[|a| + |d|..] == rest;
    assert Split(t[|a| + |d|..], d) == Split(rest, d);
  }

  /** Text without the delimiter's first character is a single piece. */
  lemma SplitLastPiece(c: string, d: string)
    requires d != [] && d[0] !in c
    ensures Split(c, d) == [c]
  {
    forall p
      ensures !OccursAt(c, p, d)
    {
      OccursAtFirst(c, p, d);
    }
    SplitNoDelimiter(c, d);
  }

  lemma OccursAtFirst(c: string, p: int, d: string)
    requires d != []
    ensures OccursAt(c, p, d) ==> d[0] in c
  {
    if OccursAt(c, p, d) {
      assert c[p..p + |d|][0] == c[p];
    }
  }

  /** Three pieces joined by the delimiter come back as they were, with
      nothing trimmed. */
  lemma SplitThreePieces(a: string, b: string, c: string)
    requires '+' !in a && '+' !in b && '+' !in c
    ensures Split(a + Delimiter + b + Delimiter + c, Delimiter) == [a, b, c]
  {
    var d := Delimiter;
    assert a + d + b + d + c == a + d + (b + d + c);
    SplitAfterPiece(a, d, b + d + c);
    SplitAfterPiece(b, d, c);
    SplitLastPiece(c, d);
  }

  lemma SplitThree()
    ensures Split("A+++++B+++++C", Delimiter) == ["A", "B", "C"]
  {
    SplitThreePieces("A", "B", "C");
    assert "A" + Delimiter + "B" + Delimiter + "C" == "A+++++B+++++C";
  }

  /** Whitespace around a delimiter stays with the pieces. */
  lemma SplitKeepsSpaces()
    ensures Split("A +++++ B", Delimiter) == ["A ", " B"]
  {
    SplitAfterPiece("A ", Delimiter, " B");
    SplitLastPiece(" B", Delimiter);
    assert "A " + Delimiter + " B" == "A +++++ B";
  }

  // ---------------------------------------------------------------------------
  // Fixed-count chunking.

  /** Start of slice `i` of `n`: `i` whole steps of `len // n`. */
  function SliceStart(len: nat, n: nat, i: nat): nat
    requires n >= 1
  {
    i * (len / n)
  }

  /** End of slice `i` of `n`: one step further, except that the last slice
      runs to the end of the text. */
  function SliceEnd(len: nat, n: nat, i: nat): nat
    requires n >= 1
  {
    if i == n - 1 then len else (i + 1) * (len / n)
  }

  lemma MulLeft(a: nat, b: nat, c: nat)
    requires a <= b
    ensures a * c <= b * c
  {
  }

  /** Every slice lies inside the text and ends no earlier than it starts. */
  lemma SliceBounds(len: nat, n: nat, i: nat)
    requires n >= 1 && i < n
    ensures SliceStart(len, n, i) <= SliceEnd(len, n, i) <= len
  {
    var size := len / n;
    assert n * size <= len;
    MulLeft(i, n - 1, size);
    if i < n - 1 {
      MulLeft(i + 1, n, size);
    }
  }

  /** The `i`-th slice of the text before stripping. */
  function Slice(text: string, n: nat, i: nat): string
    requires n >= 1 && i < n
  {
    SliceBounds(|text|, n, i);
    text[SliceStart(|text|, n, i)..SliceEnd(|text|, n, i)]
  }

  /** The first `k` slices, in order. */
  function Slices(text: string, n: nat, k: nat): (r: seq<string>)
    requires n >= 1 && k <= n
    ensures |r| == k
  {
    if k == 0 then [] else Slices(text, n, k - 1) + [Slice(text, n, k - 1)]
  }

  /** Each string of `ss` with its surrounding whitespace cut off. */
  function StripAll(ss: seq<string>): seq<string> {
    if ss == [] then [] else StripAll(ss[..|ss| - 1]) + [Strip(ss[|ss| - 1])]
  }

  lemma {:induction false} SlicesIndex(text: string, n: nat, k: nat)
    requires n >= 1 && k <= n
    ensures |Slices(text, n, k)| == k
    ensures forall i :: 0 <= i < k ==> Slices(text, n, k)[i] == Slice(text, n, i)
    decreases k
  {
    if k > 0 {
      SlicesIndex(text, n, k - 1);
    }
  }

  lemma {:induction false} StripAllIndex(ss: seq<string>)
    ensures |StripAll(ss)| == |ss|
    ensures forall i :: 0 <= i < |ss| ==> StripAll(ss)[i] == Strip(ss[i])
    decreases |ss|
  {
    if ss != [] {
      StripAllIndex(ss[..|ss| - 1]);
    }
  }

  lemma StripAllSnoc(ss: seq<string>, s: string)
    ensures StripAll(ss + [s]) == StripAll(ss) + [Strip(s)]
  {
    assert (ss + [s])[..|ss|] == ss;
  }

  /** `split_text_into_chunks`: `numChunks` pieces, each the stripped slice of
      the same index. */
  method SplitIntoChunks(text: string, numChunks: nat) returns (chunks: seq<string>)
    requires numChunks >= 1
    ensures chunks == StripAll(Slices(text, numChunks, numChunks))
    ensures |chunks| == numChunks
    ensures forall i :: 0 <= i < numChunks ==> chunks[i] == Strip(Slice(text, numChunks, i))
  {
    var chunkSize := |text| / numChunks;
    chunks := [];
    var start := 0;
    for i := 0 to numChunks
      invariant i < numChunks ==> start == SliceStart(|text|, numChunks, i)
      invariant chunks == StripAll(Slices(text, numChunks, i))
    {
      SliceStep(|text|, numChunks, i);
      var end := start + chunkSize;
      if i == numChunks - 1 {
        end := |text|;
      }
      assert text[start..end] == Slice(text, numChunks, i);
      StripAllSnoc(Slices(text, numChunks, i), text[start..end]);
      var chunk := Strip(text[start..end]);
      chunks := chunks + [chunk];
      start := end;
    }
    SlicesIndex(text, numChunks, numChunks);
    StripAllIndex(Slices(text, numChunks, numChunks));
  }

  /** Consecutive slices meet: each one starts where the previous one ends. */
  lemma SlicesMeet(len: nat, n: nat, i: nat)
    requires n >= 1 && i + 1 < n
    ensures SliceEnd(len, n, i) == SliceStart(len, n, i + 1)
  {
  }

  /** One step of the chunking loop: slice `i` ends one chunk size after it
      starts, or at the end of the text when it is the last one. */
  lemma SliceStep(len: nat, n: nat, i: nat)
    requires n >= 1 && i < n
    ensures SliceStart(len, n, i) <= SliceEnd(len, n, i) <= len
    ensures i < n - 1 ==> SliceEnd(len, n, i) == SliceStart(len, n, i) + len / n
    ensures i < n - 1 ==> SliceEnd(len, n, i) == SliceStart(len, n, i + 1)
    ensures SliceStart(len, n, 0) == 0
  {
    SliceBounds(len, n, i);
    assert (i + 1) * (len / n) == i * (len / n) + len / n;
  }

  /** The concatenation of `ss`. */
  function Concat(ss: seq<string>): string {
    if ss == [] then [] else Concat(ss[..|ss| - 1]) + ss[|ss| - 1]
  }

  /** The first `k` slices cover the text up to where slice `k - 1` ends. */
  lemma {:induction false} SlicesPrefix(text: string, n: nat, k: nat)
    requires n >= 1 && 1 <= k <= n
    ensures SliceEnd(|text|, n, k - 1) <= |text|
    ensures Concat(Slices(text, n, k)) == text[..SliceEnd(|text|, n, k - 1)]
    decreases k
  {
    SliceBounds(|text|, n, k - 1);
    var ss := Slices(text, n, k);
    assert ss[..k - 1] == Slices(text, n, k - 1);
    if k == 1 {
      assert Concat(Slices(text, n, 0)) == [];
    } else {
      SlicesPrefix(text, n, k - 1);
      SlicesMeet(|text|, n, k - 2);
      var a := SliceEnd(|text|, n, k - 2);
      var b := SliceEnd(|text|, n, k - 1);
      assert text[..a] + text[a..b] == text[..b];
    }
  }

  /** The unstripped slices tile the text: together they are the text, in order. */
  lemma SlicesTile(text: string, n: nat)
    requires n >= 1
    ensures Concat(Slices(text, n, n)) == text
  {
    SlicesPrefix(text, n, n);
    assert text[..|text|] == text;
  }

  /** Every slice but the last has `len // n` characters; the last also takes
      the remainder. */
  lemma SliceLengths(text: string, n: nat, i: nat)
    requires n >= 1 && i < n
    ensures i < n - 1 ==> |Slice(text, n, i)| == |text| / n
    ensures i == n - 1 ==> |Slice(text, n, i)| == |text| / n + |text| % n
  {
    var size := |text| / n;
    SliceBounds(|text|, n, i);
    assert (i + 1) * size == i * size + size;
    assert |text| == n * size + |text| % n;
    assert (n - 1) * size == n * size - size;
  }

  /** 100 characters in 3 chunks: slices of 33, 33 and 34 characters. */
  lemma HundredInThree(text: string)
    requires |text| == 100
    ensures |Slice(text, 3, 0)| == 33 && |Slice(text, 3, 1)| == 33 && |Slice(text, 3, 2)| == 34
  {
    SliceLengths(text, 3, 0);
    SliceLengths(text, 3, 1);
    SliceLengths(text, 3, 2);
  }

  /** More chunks than characters: all but the last chunk are empty and the
      last is the whole text stripped. */
  lemma MoreChunksThanCharacters(text: string, n: nat)
    requires n > |text|
    ensures forall i :: 0 <= i < n - 1 ==> Strip(Slice(text, n, i)) == []
    ensures Strip(Slice(text, n, n - 1)) == Strip(text)
  {
    assert |text| / n == 0;
    assert Slice(text, n, n - 1) == text[0..|text|] == text;
  }

  /** Each chunk is its slice with the surrounding whitespace cut off: a
      contiguous piece of the slice with no whitespace at either end. */
  lemma ChunkIsStrippedSlice(text: string, n: nat, i: nat, chunk: string)
    requires n >= 1 && i < n && chunk == Strip(Slice(text, n, i))
    ensures IsStripped(chunk, Slice(text, n, i))
    ensures chunk == [] || (!IsSpace(chunk[0]) && !IsSpace(chunk[|chunk| - 1]))
    ensures |chunk| <= |Slice(text, n, i)|
  {
    StripCorrect(Slice(text, n, i));
  }
}

=== FILE: text.dfy ===
/** Character-level vocabulary shared by the cleaner, the segmenter and the
    extension dispatch: whitespace, occurrences of a literal, deletion-only
    rewriting (subsequences) and Python's `str.strip()`. */
module Text {
  import opened Wrappers

  /** The whitespace set used for both `\s` and `str.strip()`: the six ASCII
      whitespace characters (space, tab, line feed, carriage return, vertical
      tab, form feed). */
  predicate IsSpace(c: char) {
    c == ' ' || c == '\t' || c == '\n' || c == '\r' || c == '\U{000B}' || c == '\U{000C}'
  }

  predicate AllSpace(s: string) {
    forall j :: 0 <= j < |s| ==> IsSpace(s[j])
  }

  /** The literal `d` starts at index `i` of `s`. */
  predicate OccursAt(s: string, i: int, d: string) {
    0 <= i && i + |d| <= |s| && s[i..i + |d|] == d
  }

  /** An occurrence in the tail of `s` is an occurrence in `s`, one index later. */
  lemma OccursAtTail(s: string, d: string)
    requires s != []
    ensures forall i :: 1 <= i ==> (OccursAt(s, i, d) <==> OccursAt(s[1..], i - 1, d))
  {
    forall i | 1 <= i
      ensures OccursAt(s, i, d) <==> OccursAt(s[1..], i - 1, d)
    {
      if i + |d| <= |s| {
        assert s[i..i + |d|] == s[1..][i - 1..i - 1 + |d|];
      }
    }
  }

  /** An occurrence inside a prefix is an occurrence in the whole text that
      ends inside the prefix. */
  lemma OccursAtPrefix(s: string, n: nat, p: int, d: string)
    requires n <= |s|
    ensures OccursAt(s[..n], p, d) ==> OccursAt(s, p, d) && p + |d| <= n
  {
    if OccursAt(s[..n], p, d) {
      assert s[..n][p..p + |d|] == s[p..p + |d|];
    }
  }

  /** Index of the leftmost occurrence of `d` in `s` (Python's `str.find`),
      `None` when there is none (where `str.find` gives -1). */
  function Find(s: string, d: string): (r: Option<nat>)
    requires d != []
    ensures r.Some? ==> OccursAt(s, r.value, d)
    decreases |s|
  {
    if |s| < |d| then None
    else if s[..|d|] == d then Some(0)
    else
      match Find(s[1..], d)
      case None => None
      case Some(i) =>
        assert s[i + 1..i + 1 + |d|] == s[1..][i..i + |d|];
        Some(i + 1)
  }

  /** `Find` returns the leftmost occurrence, and `None` exactly when there is none. */
  lemma {:induction false} FindCorrect(s: string, d: string)
    requires d != []
    ensures Find(s, d).Some? ==> forall i :: 0 <= i < Find(s, d).value ==> !OccursAt(s, i, d)
    ensures Find(s, d).None? ==> forall i :: !OccursAt(s, i, d)
    decreases |s|
  {
    if |s| >= |d| && s[..|d|] != d {
      OccursAtTail(s, d);
      FindCorrect(s[1..], d);
    }
  }

  /** Where no occurrence starts at the first character, the search goes on
      one character later. */
  lemma FindTail(s: string, d: string)
    requires d != [] && s != [] && !OccursAt(s, 0, d)
    ensures Find(s[1..], d).None? ==> Find(s, d).None?
    ensures Find(s[1..], d).Some? ==> Find(s, d) == Some(Find(s[1..], d).value + 1)
  {
    if |s| < |d| {
      assert Find(s[1..], d).None?;
    }
  }

  /** `a` is obtained from `b` by deleting characters. */
  predicate IsSubsequence(a: string, b: string)
    decreases |b|
  {
    a == [] || (b != [] && ((a[0] == b[0] && IsSubsequence(a[1..], b[1..])) || IsSubsequence(a, b[1..])))
  }

  lemma {:induction false} SubsequenceLength(a: string, b: string)
    requires IsSubsequence(a, b)
    ensures |a| <= |b|
    decreases |b|
  {
    if a != [] {
      if a[0] == b[0] && IsSubsequence(a[1..], b[1..]) {
        SubsequenceLength(a[1..], b[1..]);
      } else {
        SubsequenceLength(a, b[1..]);
      }
    }
  }

  lemma {:induction false} SubsequenceRefl(a: string)
    ensures IsSubsequence(a, a)
    decreases |a|
  {
    if a != [] {
      SubsequenceRefl(a[1..]);
    }
  }

  /** Deleting a whole prefix keeps a subsequence. */
  lemma {:induction false} SubsequenceDropPrefix(a: string, b: string, x: string)
    requires IsSubsequence(a, b)
    ensures IsSubsequence(a, x + b)
    decreases |x|
  {
    if x == [] {
      assert x + b == b;
    } else if a != [] {
      assert (x + b)[1..] == x[1..] + b;
      SubsequenceDropPrefix(a, b, x[1..]);
      assert IsSubsequence(a, (x + b)[1..]);
    }
  }

  /** A common prefix can be kept on both sides. */
  lemma {:induction false} SubsequenceKeepPrefix(a: string, b: string, x: string)
    requires IsSubsequence(a, b)
    ensures IsSubsequence(x + a, x + b)
    decreases |x|
  {
    if x == [] {
      assert x + a == a && x + b == b;
    } else {
      assert (x + a)[1..] == x[1..] + a;
      assert (x + b)[1..] == x[1..] + b;
      SubsequenceKeepPrefix(a, b, x[1..]);
      assert (x + a)[0] == (x + b)[0] && IsSubsequence((x + a)[1..], (x + b)[1..]);
    }
  }

  lemma {:induction false} SubsequenceTrans(a: string, b: string, c: string)
    requires IsSubsequence(a, b) && IsSubsequence(b, c)
    ensures IsSubsequence(a, c)
    decreases |c|
  {
    if a != [] {
      if b[0] == c[0] && IsSubsequence(b[1..], c[1..]) {
        if a[0] == b[0] && IsSubsequence(a[1..], b[1..]) {
          SubsequenceTrans(a[1..], b[1..], c[1..]);
        } else {
          SubsequenceTrans(a, b[1..], c[1..]);
        }
      } else {
        SubsequenceTrans(a, b, c[1..]);
      }
    }
  }

  /** Number of whitespace characters at the start of `s`. */
  function LeadingSpaces(s: string): (k: nat)
    ensures k <= |s|
    decreases |s|
  {
    if s != [] && IsSpace(s[0]) then 1 + LeadingSpaces(s[1..]) else 0
  }

  /** Number of whitespace characters at the end of `s`. */
  function TrailingSpaces(s: string): (k: nat)
    ensures k <= |s|
    decreases |s|
  {
    if s != [] && IsSpace(s[|s| - 1]) then 1 + TrailingSpaces(s[..|s| - 1]) else 0
  }

  /** `LeadingSpaces` counts the whole whitespace run at the start and stops
      at the first other character. */
  lemma {:induction false} LeadingSpacesCorrect(s: string)
    ensures AllSpace(s[..LeadingSpaces(s)])
    ensures LeadingSpaces(s) < |s| ==> !IsSpace(s[LeadingSpaces(s)])
    decreases |s|
  {
    if s != [] && IsSpace(s[0]) {
      var k' := LeadingSpaces(s[1..]);
      LeadingSpacesCorrect(s[1..]);
      assert s[..k' + 1] == [s[0]] + s[1..][..k'];
    }
  }

  /** `TrailingSpaces` counts the whole whitespace run at the end and stops
      at the last other character. */
  lemma {:induction false} TrailingSpacesCorrect(s: string)
    ensures AllSpace(s[|s| - TrailingSpaces(s)..])
    ensures TrailingSpaces(s) < |s| ==> !IsSpace(s[|s| - 1 - TrailingSpaces(s)])
    decreases |s|
  {
    if s != [] && IsSpace(s[|s| - 1]) {
      var init := s[..|s| - 1];
      var k' := TrailingSpaces(init);
      TrailingSpacesCorrect(init);
      assert TrailingSpaces(s) == k' + 1;
      forall j | |s| - (k' + 1) <= j < |s|
        ensures IsSpace(s[j])
      {
        if j < |s| - 1 {
          assert s[j] == init[|init| - k'..][j - (|init| - k')];
        }
      }
      assert k' + 1 < |s| ==> s[|s| - 1 - (k' + 1)] == init[|init| - 1 - k'];
    }
  }

  /** `s[a..b]` is what is left of `s` once its leading and trailing
      whitespace is cut off: only whitespace outside, none at either end inside. */
  predicate StripBounds(s: string, a: int, b: int) {
    0 <= a <= b <= |s| && AllSpace(s[..a]) && AllSpace(s[b..]) &&
    (a < b ==> !IsSpace(s[a]) && !IsSpace(s[b - 1]))
  }

  /** `r` is a contiguous piece of `s` that `StripBounds` delimits. */
  ghost predicate IsStripped(r: string, s: string) {
    exists a, b :: StripBounds(s, a, b) && r == s[a..b]
  }

  /** Python's `str.strip()` with no argument. */
  function Strip(s: string): (r: string)
    ensures |r| <= |s|
  {
    var a := LeadingSpaces(s);
    s[a..|s| - TrailingSpaces(s[a..])]
  }

  /** `Strip` cuts off exactly the surrounding whitespace: what is left is a
      contiguous piece of `s` with no whitespace at either end. */
  lemma StripCorrect(s: string)
    ensures IsStripped(Strip(s), s)
    ensures Strip(s) == [] || (!IsSpace(Strip(s)[0]) && !IsSpace(Strip(s)[|Strip(s)| - 1]))
  {
    var a := LeadingSpaces(s);
    var b := |s| - TrailingSpaces(s[a..]);
    LeadingSpacesCorrect(s);
    TrailingSpacesCorrect(s[a..]);
    assert s[a..][..b - a] == s[a..b];
    assert AllSpace(s[b..]) by {
      assert s[b..] == s[a..][|s[a..]| - (|s| - b)..];
    }
    assert a == b ==> AllSpace(s[..b]);
    assert StripBounds(s, a, b);
  }

  /** Two ways of cutting whitespace off `s` always leave the same text. */
  lemma StripBoundsUnique(s: string, a: int, b: int, a': int, b': int)
    requires StripBounds(s, a, b) && StripBounds(s, a', b')
    ensures s[a..b] == s[a'..b']
  {
  }

  /** `IsStripped` pins its result down, so `Strip` is the only function meeting it. */
  lemma StrippedUnique(r: string, r': string, s: string)
    requires IsStripped(r, s) && IsStripped(r', s)
    ensures r == r'
  {
    var a, b :| StripBounds(s, a, b) && r == s[a..b];
    var a', b' :| StripBounds(s, a', b') && r' == s[a'..b'];
    StripBoundsUnique(s, a, b, a', b');
  }
}

=== FILE: wrappers.dfy ===
/** Optional values, as the source's functions return `None` for "nothing produced". */
module Wrappers {

  datatype Option<+T> = None | Some(value: T)

  /** The present values of `xs`, in order: what a loop that appends only the
      non-`None` results of a sequence of calls ends up holding. */
  function Values<T>(xs: seq<Option<T>>): (r: seq<T>)
    ensures |r| <= |xs|
  {
    if xs == [] then []
    else
      var last := xs[|xs| - 1];
      Values(xs[..|xs| - 1]) + (if last.Some? then [last.value] else [])
  }

  /** Filtering distributes over concatenation: nothing is reordered. */
  lemma {:induction false} ValuesAppend<T>(a: seq<Option<T>>, b: seq<Option<T>>)
    ensures Values(a + b) == Values(a) + Values(b)
    decreases |b|
  {
    if b == [] {
      assert a + b == a;
    } else {
      var b' := b[..|b| - 1];
      assert (a + b)[..|a + b| - 1] == a + b';
      ValuesAppend(a, b');
    }
  }

  /** Nothing is dropped exactly when every entry is present. */
  lemma {:induction false} ValuesComplete<T>(xs: seq<Option<T>>)
    ensures |Values(xs)| == |xs| <==> forall i :: 0 <= i < |xs| ==> xs[i].Some?
    decreases |xs|
  {
    if xs != [] {
      ValuesComplete(xs[..|xs| - 1]);
    }
  }

  /** When every entry is present, filtering keeps each one at its own index. */
  lemma {:induction false} ValuesAllPresent<T>(xs: seq<Option<T>>)
    requires forall i :: 0 <= i < |xs| ==> xs[i].Some?
    ensures |Values(xs)| == |xs|
    ensures forall i :: 0 <= i < |xs| ==> Values(xs)[i] == xs[i].value
    decreases |xs|
  {
    if xs != [] {
      ValuesAllPresent(xs[..|xs| - 1]);
    }
  }

  /** When exactly the entry at `k` is missing, the result is every other entry,
      closed up with no placeholder: entry `j` comes from index `j` before `k`
      and from index `j + 1` from `k` on. */
  lemma ValuesOmitOne<T>(xs: seq<Option<T>>, k: nat)
    requires k < |xs| && xs[k].None?
    requires forall i :: 0 <= i < |xs| && i != k ==> xs[i].Some?
    ensures |Values(xs)| == |xs| - 1
    ensures forall j :: 0 <= j < k ==> Values(xs)[j] == xs[j].value
    ensures forall j :: k <= j < |xs| - 1 ==> Values(xs)[j] == xs[j + 1].value
  {
    var before, after := xs[..k], xs[k + 1..];
    ValuesSkip(xs, k);
    var vb, va := Values(before), Values(after);
    ValuesAllPresent(before);
    ValuesAllPresent(after);
    forall j | 0 <= j < k
      ensures Values(xs)[j] == xs[j].value
    {
      assert Values(xs)[j] == vb[j] && before[j] == xs[j];
    }
    forall j | k <= j < |xs| - 1
      ensures Values(xs)[j] == xs[j + 1].value
    {
      assert Values(xs)[j] == va[j - k] && after[j - k] == xs[j + 1];
    }
  }

  /** A missing entry contributes nothing. */
  lemma ValuesSkip<T>(xs: seq<Option<T>>, k: nat)
    requires k < |xs| && xs[k].None?
    ensures Values(xs) == Values(xs[..k]) + Values(xs[k + 1..])
  {
    var before, one, after := xs[..k], [xs[k]], xs[k + 1..];
    assert xs == (before + one) + after;
    assert Values(one) == [] by {
      assert one[..0] == [];
    }
    ValuesAppend(before, one);
    assert Values(before + one) == Values(before);
    ValuesAppend(before + one, after);
  }
}
